=== FILE: README.md ===
# TestIt daemon: pipeline lifecycle and test scheduling, modelled in Dafny

TestIt runs test suites for ROS-based robots on a pool of disposable *pipelines*.
Each pipeline is a pair of containers: one holds the system under test (SUT), the
other holds the TestIt harness. The daemon (`testit_daemon.py`) does the following:

- It keeps one lifecycle state per pipeline: OFFLINE, BRINGUP, READY, BUSY, TEARDOWN or FAILED.
- It brings pipelines up and tears them down by starting one worker thread per pipeline
  and collecting their results.
- It runs tests by starting one worker per test. Each worker claims a READY pipeline,
  runs the SUT and TestIt, launches the test (with an optional oracle), derives a
  verdict and frees the pipeline.
- It reports each test as skipped, failed or passed.

This project models that sequential decision logic as pure functions, plus a few
methods with loops. Threads, sleeps and subprocesses become explicit inputs:

- exit codes;
- the pipeline state seen at each one-second poll tick;
- the tick from which a worker's result entry is visible;
- the registry as each acquisition scan sees it.

| module | file | models |
|---|---|---|
| `Options` | options.dfy | `None`/missing entries (`Option`) and raised exceptions (`Result`) |
| `Pipelines` | pipelines.dfy | the state enum, the registry, `acquire_pipeline` and the release step of `test_thread_worker` |
| `BoundedWait` | bounded_wait.dfy | `execute_system` and `instance_execution`/`execution_sleep`, the two variants of the wait-for-action loop |
| `Lifecycle` | lifecycle.dfy | `thread_worker` with the bring-up and teardown `post_states` |
| `Polling` | polling.dfy | the "remove the first finished worker" scan shared by two loops |
| `FanOut` | fan_out.dfy | `multithreaded_command`: selection, pre-state, result aggregation |
| `Verdicts` | verdict.dfy | the verdict of `execute_in_testit_container` |
| `TestRun` | test_run.dfy | `test_thread_worker` once it holds a pipeline |
| `Scheduler` | scheduler.dfy | `handle_test`, `nonblocking_test_monitor`, the `testing` reset in `handle_teardown`, the classification in `handle_results` |
| `Config` | config.dfy | `set_defaults`, `rosparam_list_to_dict`, `substitute_config_values` |

## How time is modelled

Tick k of a wait loop is the k-th evaluation of its condition, k seconds after the
configured delay. `ticks[k]` is the state it reads. The loop stops at the first tick
where the state no longer counts as "in progress" or where the timeout (0 = none)
has run out. The check after the loop reads the state at that tick. If the loop has
not stopped within the observed ticks, the result is `None`, meaning still blocked.

The two collection loops (the dispatcher's and the test monitor's) scan workers in
dictionary order and remove the first finished one. A worker is finished from a given
tick onwards; a worker that never writes its result is never finished.

## Behaviour as written

The model follows the code. In these places the code behaves in ways a caller may
not expect:

- **Timeout 0 never succeeds.** A timeout of 0 means "no limit". The loop can then only
  end when the pipeline leaves the "in progress" set, and that makes the action fail.
  So a bring-up with timeout 0 never reaches READY. Lemma: `BoundedWait.UnboundedWaitNeverSucceeds`.
- **The two loops check different states.** `instance_execution` stops only on TEARDOWN.
  `execute_system` also stops on FAILED and OFFLINE. Lemma: `BoundedWait.VariantsDiffer`.
- **Teardown reports failure.** The dispatcher sets TEARDOWN before the teardown worker
  starts. The worker's first wait loop therefore stops at once and reports failure.
  A teardown thus records False, unless the state moved off TEARDOWN first, but it still
  ends OFFLINE. Lemma: `Lifecycle.TeardownRecordsFailure`.
- **The TestIt teardown command never runs on a normal teardown.** The worker runs the
  TestIt step only after the SUT step succeeds. While the state stays TEARDOWN the SUT
  step fails, so the TestIt step is skipped. `Lifecycle.TeardownRecordsFailure` gives the
  same result whatever the TestIt action would have done.
- **The pre-state ignores the current state.** Bring-up and teardown set their pre-state
  on every selected pipeline, whatever state it is in.
- **A second test request is accepted silently.** A request during a run changes nothing,
  but still answers success with an empty message. `handle_test` resets `result` and
  `pipeline`, but not `executor_pipeline`.
- **Failed starts block the monitor.** A test worker sets its `test_threads` entry only
  after both the SUT and TestIt started. Otherwise the monitor never clears `testing`.
  Only a teardown does.
- **A failing oracle still passes.** When the oracle exits non-zero (neither 0 nor the
  timeout sentinel -1), the daemon logs "TEST FAIL!" but returns a pass. The model keeps
  this. `Verdicts.VerdictMatchesLogExceptOracleFailure` proves this is the only case
  where the verdict and the log line disagree.
- **Claims are not race-free.** `acquire_pipeline` tests for READY and writes BUSY with
  no lock in between, so two test workers can claim the same pipeline. The model takes
  each scan as one step. `Pipelines.NoDoubleClaim` and `Pipelines.SingleReadyClaimedOnce`
  are about scans that run one after the other.

## Model

| member | source | states |
|---|---|---|
| Pipelines.FirstReady | testit/src/testit/testit_daemon.py:229-232 | the position found holds a READY pipeline and no earlier position does; None means no READY pipeline from there on |
| Pipelines.AcquireScan | testit/src/testit/testit_daemon.py:228-233 | a claim returns a tag that was READY, the first such in iteration order, now BUSY, with every other pipeline unchanged; no claim iff no pipeline is READY |
| Pipelines.Acquire | testit/src/testit/testit_daemon.py:222-234 | the worker gets its pipeline at the first scan that finds one READY; None means every observed scan found none and the worker still waits |
| Pipelines.ReleasedState | testit/src/testit/testit_daemon.py:355-357 | the state after release is READY exactly when the pipeline was not TEARDOWN, OFFLINE or FAILED, and unchanged otherwise |
| Pipelines.Release | testit/src/testit/testit_daemon.py:355-357 | an inactive pipeline (TEARDOWN, OFFLINE, FAILED) leaves the registry untouched; otherwise the pipeline becomes READY; no other pipeline changes |
| Pipelines.ReleaseFreesBusy | testit/src/testit/testit_daemon.py:355-357 | a pipeline still BUSY at the end of its test is READY again |
| Pipelines.ReleaseReadyIffActive | testit/src/testit/testit_daemon.py:355-357 | release yields READY iff the pipeline was not moved to TEARDOWN, OFFLINE or FAILED |
| Pipelines.AcquireReleaseRoundTrip | testit/src/testit/testit_daemon.py:228-233 | claiming a pipeline then releasing it, with nothing in between, gives back the same registry |
| Pipelines.NoDoubleClaim | testit/src/testit/testit_daemon.py:229-232 | a scan run after a claim has completed never hands out the claimed pipeline again (scans taken as one step each) |
| Pipelines.SingleReadyClaimedOnce | testit/src/testit/testit_daemon.py:228-233 | with one READY pipeline, of two scans run one after the other the first gets it and the second finds nothing |
| BoundedWait.ExitTick | testit/src/testit/testit_daemon.py:248-253 | the tick found is the first where the loop condition fails; None means the condition held at every observed tick |
| BoundedWait.ExecuteSystem | testit/src/testit/testit_daemon.py:236-259 | a non-zero exit code gives False without waiting; success needs exit code 0 and a non-zero timeout |
| BoundedWait.InstanceExecution | testit/src/testit/testit_daemon.py:128-147 | a non-zero exit code records and returns False; every failure records False; a success records True only with `set_result` |
| BoundedWait.WaitOutcome | testit/src/testit/testit_daemon.py:121-125 | either loop ends in success iff the state held through ticks 0..timeout, and in failure iff it left the in-progress set inside the window |
| BoundedWait.ExecuteSystemOutcome | testit/src/testit/testit_daemon.py:244-259 | `execute_system` is True iff exit 0 and the pipeline stayed out of TEARDOWN/FAILED/OFFLINE through the timeout; False iff exit non-zero or it entered one of them in the window |
| BoundedWait.InstanceExecutionOutcome | testit/src/testit/testit_daemon.py:130-143 | `instance_execution` succeeds iff exit 0 and the pipeline stayed out of TEARDOWN through the timeout; it fails iff exit non-zero or TEARDOWN came inside the window |
| BoundedWait.UnboundedWaitNeverSucceeds | testit/src/testit/testit_daemon.py:248 | with timeout 0 neither variant can return success |
| BoundedWait.StartedDuringTeardownFails | testit/src/testit/testit_daemon.py:121-143 | an action whose first tick sees TEARDOWN fails at once in both variants |
| BoundedWait.VariantsDiffer | testit/src/testit/testit_daemon.py:248-256 | for any action whose command succeeds and whose window never reads TEARDOWN but reads FAILED at some tick, `execute_system` fails while `instance_execution` succeeds |
| Lifecycle.ThreadWorker | testit/src/testit/testit_daemon.py:149-155 | a finished worker always writes a result; it is True iff both steps succeeded; the final state is the success post-state iff the result is True; the worker blocks iff a step it runs blocks |
| Lifecycle.TestItRunsOnlyAfterSut | testit/src/testit/testit_daemon.py:151-152 | when the SUT step fails, the TestIt step's inputs do not matter and the worker records False with the failure post-state |
| Lifecycle.BringupEndsReadyOrFailed | testit/src/testit/testit_daemon.py:203 | a bring-up worker ends READY or FAILED, READY iff both steps succeeded |
| Lifecycle.TeardownEndsOffline | testit/src/testit/testit_daemon.py:208 | a teardown worker always ends OFFLINE |
| Lifecycle.TeardownRecordsFailure | testit/src/testit/testit_daemon.py:135-143 | if the first tick of the teardown SUT step reads TEARDOWN, the worker records False and ends OFFLINE |
| Polling.FirstDone | testit/src/testit/testit_daemon.py:181-194 | the entry found is the first finished one in iteration order; None means none is finished |
| Polling.RemoveAt | testit/src/testit/testit_daemon.py:193 | deleting an entry removes exactly that element; the entries before it keep their position and those after it move up by one |
| FanOut.Start | testit/src/testit/testit_daemon.py:163-166 | each selected pipeline is put in the pre-state; every other pipeline keeps its state |
| FanOut.Filter | testit/src/testit/testit_daemon.py:163-164 | a pipeline is selected iff the argument is empty or equals its tag; an empty argument selects all, in order |
| FanOut.FailureMessageEmptyIffAllPass | testit/src/testit/testit_daemon.py:183-189 | the message is empty iff every collected worker succeeded |
| FanOut.OneLinePerFailure | testit/src/testit/testit_daemon.py:183-187 | with tags free of line breaks, the message has exactly one line per failed worker |
| FanOut.NewlinesOfFailureLine | testit/src/testit/testit_daemon.py:183-187 | a failure line contributes exactly one line break |
| FanOut.Record | testit/src/testit/testit_daemon.py:188-192 | `pipelines[tag][prefix]` holds each collected worker's result; other entries keep their earlier value |
| FanOut.CollectOne | testit/src/testit/testit_daemon.py:182-193 | collecting one more worker appends its failure line, if any, and records its result |
| FanOut.Aggregate | testit/src/testit/testit_daemon.py:178-197 | the loop ends only once every worker has been removed, each exactly once; `result` is the AND of all results; the message has one line per failure, in removal order, and is empty iff `result` |
| FanOut.RunWorkers | testit/src/testit/testit_daemon.py:172-177 | the results of all selected workers, or None iff one of them is still blocked |
| FanOut.Publish | testit/src/testit/testit_daemon.py:153-155 | each selected pipeline holds the state its worker published; others are unchanged |
| FanOut.Dispatch | testit/src/testit/testit_daemon.py:157-197 | returns iff no selected worker blocks; then selected pipelines hold their workers' post-states, others are unchanged; `result` is the AND of the workers' results; the message is empty iff `result`; the per-pipeline record matches each worker |
| FanOut.DispatchFinalStates | testit/src/testit/testit_daemon.py:202-209 | a finished teardown leaves the pipeline OFFLINE; a finished bring-up leaves it READY or FAILED, READY iff its worker reported True |
| Verdicts.Verdict | testit/src/testit/testit_daemon.py:276-318 | without an oracle: pass iff launch code 0, or -1 with `timeoutVerdict`; with an oracle and launch 0: pass iff the oracle did not time out or `timeoutVerdict`; launch -1 gives `timeoutVerdict`; other launch codes fail |
| Verdicts.VerdictMatchesLogExceptOracleFailure | testit/src/testit/testit_daemon.py:301-318 | the verdict matches the logged PASS/FAIL/TIMEOUT line in every case except a failing oracle, which logs FAIL and passes |
| Verdicts.AttachedIgnoresOracle | testit/src/testit/testit_daemon.py:276-293 | without an oracle, the oracle code plays no part in the verdict |
| Verdicts.StopsRecording | testit/src/testit/testit_daemon.py:320-322 | recording is stopped only when enabled, and then iff the test passed |
| TestRun.StopSutAndRelease | testit/src/testit/testit_daemon.py:349-357 | the release happens iff the SUT stop call returns, and leaves the released state; the verdict is unchanged |
| TestRun.TestWorker | testit/src/testit/testit_daemon.py:325-357 | a verdict is written iff the SUT and TestIt runs both succeed, and then equals `Verdict` with this pipeline as executor; the release is reached iff every call made returns, and yields the released state |
| TestRun.StopAnswersIgnored | testit/src/testit/testit_daemon.py:343-351 | the stop calls' answers never change the verdict or the release; only whether they return matters |
| TestRun.FailedStartWritesNoVerdict | testit/src/testit/testit_daemon.py:335-354 | if the SUT or TestIt run fails, no verdict is written |
| TestRun.ReleaseOnRegistry | testit/src/testit/testit_daemon.py:355-357 | the release on the registry gives the worker's released state and changes no other pipeline |
| Scheduler.HandleTest | testit/src/testit/testit_daemon.py:373-389 | the response is always (True, ""); during a run nothing changes and nothing starts; otherwise `testing` is set, every test's `result` and `pipeline` are cleared with `executor_pipeline` kept, and one worker per test starts |
| Scheduler.TeardownReset | testit/src/testit/testit_daemon.py:206-207 | a teardown clears `testing` and changes nothing else |
| Scheduler.RunWhileTestingIsNoOp | testit/src/testit/testit_daemon.py:377-389 | a request during a run changes nothing, starts no worker, and still answers success |
| Scheduler.TeardownAllowsOverlappingRun | testit/src/testit/testit_daemon.py:207 | after a teardown, a request starts a full set of workers next to any still outstanding |
| Scheduler.Monitor | testit/src/testit/testit_daemon.py:359-369 | `testing` is cleared iff every worker has reported by the last observed tick; the workers left over are exactly those that had not reported by then |
| Scheduler.ClassifyRoundTrip | testit/src/testit/testit_daemon.py:399-415 | skipped/fail/success stand for None/False/True, and back |
| Scheduler.Results | testit/src/testit/testit_daemon.py:397-416 | one outcome per test: skipped iff no result, success iff True, fail iff False |
| Scheduler.FreshRunReportsSkipped | testit/src/testit/testit_daemon.py:379-381 | right after a run starts, every test reports skipped |
| Scheduler.RecordVerdict | testit/src/testit/testit_daemon.py:340-342 | the test reports success or fail as its verdict says, with its executor recorded; other tests are unchanged |
| Config.SetDefaults | testit/src/testit/testit_daemon.py:95-104 | keys are kept; set values are untouched; a value ends empty iff it was empty with no non-empty default; every changed value is the default |
| Config.SetDefaultsIdempotent | testit/src/testit/testit_daemon.py:95-104 | applying the defaults twice equals applying them once |
| Config.Index | testit/src/testit/testit_daemon.py:109-112 | KeyError iff some item lacks the key; the dictionary's keys are the items' tags; each entry is stored under its own tag; the last item with a tag wins |
| Config.ListToDict | testit/src/testit/testit_daemon.py:106-112 | a missing list gives None; a present list fails iff some item lacks the key, and otherwise gives the dictionary keyed by each item's tag, the last item for a tag winning |
| Config.IndexDistinctKeepsAll | testit/src/testit/testit_daemon.py:110-111 | with distinct tags every item is found under its own tag |
| Config.FindClose | testit/src/testit/testit_daemon.py:88 | the match ends at the first "]]" at or after the start, with no line break before it; None iff every "]]" from there on comes after a line break |
| Config.Placeholders | testit/src/testit/testit_daemon.py:88 | every match occurs in the string, starts with "[[", ends with "]]", has no line break in between and no "]]" before its end (the shortest match); the result is empty exactly when no match starts from there on |
| Config.NextMatch | testit/src/testit/testit_daemon.py:88 | the position found starts a match and no earlier position from the start does; none is found only when no position does |
| Config.PlaceholdersLeftmost | testit/src/testit/testit_daemon.py:88 | the first match returned is the leftmost one, ending at its first "]]", and the rest are the matches found after its end |
| Config.IndexOf | testit/src/testit/testit_daemon.py:91 | the position found is the first occurrence of the pattern; None means it does not occur |
| Config.ReplaceFirst | testit/src/testit/testit_daemon.py:91 | with no occurrence the string is unchanged; otherwise only the first occurrence is replaced, the text around it kept |
| Config.SubstituteMatches | testit/src/testit/testit_daemon.py:90-91 | only the setting being expanded changes, and it stays a string; it raises iff some placeholder names a setting that is missing (KeyError) or not a string (TypeError) |
| Config.SubstituteEntry | testit/src/testit/testit_daemon.py:86-91 | raises iff some visited setting holds a placeholder naming a missing or non-string setting; keys and string-ness are kept; settings with no placeholder, and keys not visited, keep their value |
| Config.SubstituteAll | testit/src/testit/testit_daemon.py:85-92 | raises iff the settings of some visited pipeline do; keys of every pipeline are kept; pipelines not visited are unchanged |
| Config.SubstitutionExample | testit/src/testit/testit_daemon.py:85-92 | `host: "[[name]].local"` with `name: "box"` becomes `"box.local"` |
| Config.MissingReferenceFails | testit/src/testit/testit_daemon.py:91 | a reference to a setting the pipeline lacks raises KeyError |

## Left out

- ROS services, `rospy` logging and parameters, and YAML loading (`load_config_from_file`,
  `initialize`): I/O and foreign calls. `initialize` calls `set_defaults` on the test list
  before checking it for `None`; that ordering is not modelled.
- Real threads, `time.sleep`, `thread.join` deadlines and the float deadline
  `max(0.1, timeout - elapsed)` of the oracle: I/O and timing. Elapsed time is a whole
  number of ticks. The delay before a wait loop only shifts time, so it does not appear.
  A wait loop's timeout is a whole number of seconds (`BoundedWait.Action.timeout` is a
  `nat`). In the source, a fractional timeout acts as its ceiling. A negative timeout
  ends the loop at tick 0, which succeeds if the state holds there. Neither case is
  represented.
  Exit codes, the -1 sentinel and per-tick states are inputs.
- `subprocess.call`, docker command strings, rosbag start and stop, `ground_path`, and
  `remove_bags` (which only logs): external processes. `Verdicts.StopsRecording` records
  only whether the stop command is issued.
- The best-effort stop calls the dispatcher makes before a teardown (source lines 167-170).
  Their answers are ignored. `BoundedWait.StartedDuringTeardownFails` shows they return at
  the first tick while the pipeline is in TEARDOWN. `FanOut.Dispatch` does not include them.
- Races between threads: each acquisition scan is treated as atomic. The `call_result`
  keys `launch`/`oracle` and the `threads` dictionary, which concurrent calls share,
  are not modelled as shared.
- `FinishTrigger` branches: no-ops in the source.
- `handle_status`, `handle_bag`, `handle_coverage`, the Uppaal coverage annotation, and
  the JUnit export in `handle_results`: reporting and XML/file handling. Only the
  skipped/fail/success classification is modelled.
- `testit_logger.py` and `testit_runner.py`: topic proxying, an optimizer that is not
  part of this model, and dynamic imports.
- Dictionary iteration order is an input, since Python 2 orders dictionaries by hash.
- FanOut.Dispatch: the pipelines to dispatch come from the registry's tags, which it
  requires to be distinct. A configuration list with a repeated tag would start two
  threads sharing one `threads` entry; that case is not modelled.
- Config.SubstituteEntry: only string, number and flag settings are represented, and
  only strings are searched for placeholders. Two Python 2 failures of line 88-91 are
  therefore not modelled. `str()` of a non-ASCII unicode setting raises
  UnicodeEncodeError. A list setting such as `['[[a]]']` yields a match and then raises
  AttributeError, because a list has no `replace`.
- Config.SubstituteMatches: the contract states when the expansion raises and what it
  keeps. It does not state the text the setting becomes. That text is the left-to-right
  chain of first-occurrence replacements. A replacement value may itself contain a
  placeholder, so no simpler closed form holds. `Config.SubstitutionExample` shows one
  expansion.
- Config.SubstituteEntry: likewise states failure and what is kept, not the expanded
  text. It also assumes the settings are visited once each, as a dictionary's keys are.
- Config.SubstituteAll: likewise states failure and what is kept, not the expanded text.
  It also assumes each pipeline is visited once.

=== FILE: bounded_wait.dfy ===
/**
 The bounded-wait protocol of the daemon: run a command, and if it exits 0 poll the
 pipeline's state once per second until the action's timeout elapses or the state
 says the pipeline is being taken down. The daemon has two variants of this loop:
 `execute_system` polls while the pipeline is not TEARDOWN, FAILED or OFFLINE;
 `instance_execution` (through `execution_sleep`) polls only while it is not
 TEARDOWN.

 Time is modelled by poll ticks: the k-th check of the loop condition happens k
 seconds after the configured delay, and `ticks[k]` is the pipeline state it reads.
 */
module BoundedWait {
  import opened Options
  import opened Pipelines

  /** One external action: the exit code of its command, its timeout in seconds
      (0 means no limit) and the pipeline state read at each poll tick. */
  datatype Action = Action(exitCode: int, timeout: nat, ticks: seq<State>)

  /** Which states keep a wait loop polling. */
  datatype WaitKind =
    | UntilTeardown   // `execution_sleep` and the check after it
    | UntilInactive   // `execute_system`

  /** Whether state `s` still counts as "in progress" for a loop of this kind. */
  predicate Holds(kind: WaitKind, s: State) {
    match kind
    case UntilTeardown => s != Teardown
    case UntilInactive => !Inactive(s)
  }

  /** The loop condition at tick k: the state still holds and the timeout has not run out. */
  predicate KeepsWaiting(kind: WaitKind, a: Action, k: nat)
    requires k < |a.ticks|
  {
    Holds(kind, a.ticks[k]) && (a.timeout == 0 || k < a.timeout)
  }

  /** The tick at or after k at which the loop stops, or None when it is still polling
      at the last observed tick. */
  function ExitTick(kind: WaitKind, a: Action, k: nat): (r: Option<nat>)
    requires k <= |a.ticks|
    decreases |a.ticks| - k
    ensures r.Some? ==> k <= r.value < |a.ticks| && !KeepsWaiting(kind, a, r.value)
    ensures r.Some? ==> forall j :: k <= j < r.value ==> KeepsWaiting(kind, a, j)
    ensures r.None? ==> forall j :: k <= j < |a.ticks| ==> KeepsWaiting(kind, a, j)
  {
    if k == |a.ticks| then None
    else if !KeepsWaiting(kind, a, k) then Some(k)
    else ExitTick(kind, a, k + 1)
  }

  /** `execute_system`: Some(b) is the value returned, None means the call is still
      blocked in its poll loop after the observed ticks. */
  function ExecuteSystem(a: Action): (r: Option<bool>)
    ensures a.exitCode != 0 ==> r == Some(false)
    ensures r == Some(true) ==> a.exitCode == 0 && a.timeout > 0
  {
    if a.exitCode != 0 then Some(false)
    else match ExitTick(UntilInactive, a, 0)
      case None => None
      case Some(k) => Some(!Inactive(a.ticks[k]))
  }

  /** What `instance_execution` returns, and what it writes into the worker's `result`
      entry (None: nothing written). */
  datatype StepResult = StepResult(ok: bool, record: Option<bool>)

  /** `instance_execution` with its `set_result` flag: a failure always records False;
      a success records True only when `setResult` asks for it. None means the call is
      still blocked in `execution_sleep`. */
  function InstanceExecution(a: Action, setResult: bool): (r: Option<StepResult>)
    ensures a.exitCode != 0 ==> r == Some(StepResult(false, Some(false)))
    ensures r.Some? && !r.value.ok ==> r.value.record == Some(false)
    ensures r.Some? && r.value.ok ==> r.value.record == (if setResult then Some(true) else None)
  {
    if a.exitCode != 0 then Some(StepResult(false, Some(false)))
    else match ExitTick(UntilTeardown, a, 0)
      case None => None
      case Some(k) =>
        if a.ticks[k] != Teardown then Some(StepResult(true, if setResult then Some(true) else None))
        else Some(StepResult(false, Some(false)))
  }

  /** The states of the whole timeout window, ticks 0 to `timeout`, all satisfy the kind's condition. */
  predicate HeldThroughTimeout(kind: WaitKind, a: Action) {
    0 < a.timeout < |a.ticks| && forall j :: 0 <= j <= a.timeout ==> Holds(kind, a.ticks[j])
  }

  /** Some tick inside the (possibly unbounded) window shows the pipeline leaving the
      kind's "in progress" set: the cancellation a teardown request causes. */
  predicate CancelledWithin(kind: WaitKind, a: Action) {
    exists j :: 0 <= j < |a.ticks| && (a.timeout == 0 || j <= a.timeout) && !Holds(kind, a.ticks[j])
  }

  /** The loop of either kind ends with a success exactly when the state held through the
      whole timeout window, and ends with a failure exactly when it was cancelled inside it. */
  lemma {:induction false} WaitOutcome(kind: WaitKind, a: Action)
    ensures (ExitTick(kind, a, 0).Some? && Holds(kind, a.ticks[ExitTick(kind, a, 0).value]))
            <==> HeldThroughTimeout(kind, a)
    ensures (ExitTick(kind, a, 0).Some? && !Holds(kind, a.ticks[ExitTick(kind, a, 0).value]))
            <==> CancelledWithin(kind, a)
  {
    var e := ExitTick(kind, a, 0);
    if e.Some? {
      var k := e.value;
      assert a.timeout != 0 && a.timeout < k ==> KeepsWaiting(kind, a, a.timeout);
      if Holds(kind, a.ticks[k]) {
        assert a.timeout != 0 && k == a.timeout;
        forall j | 0 <= j < |a.ticks| && (a.timeout == 0 || j <= a.timeout)
          ensures Holds(kind, a.ticks[j])
        {
          if j < k {
            assert KeepsWaiting(kind, a, j);
          }
        }
      }
    } else {
      assert HeldThroughTimeout(kind, a) ==> KeepsWaiting(kind, a, a.timeout);
      forall j | 0 <= j < |a.ticks| && (a.timeout == 0 || j <= a.timeout)
        ensures Holds(kind, a.ticks[j])
      {
        assert KeepsWaiting(kind, a, j);
      }
    }
  }

  /** `execute_system` succeeds iff the command exited 0 and the pipeline stayed out of
      TEARDOWN, FAILED and OFFLINE through the whole timeout window; it fails iff the
      command exited non-zero or the pipeline entered one of those states inside the window. */
  lemma ExecuteSystemOutcome(a: Action)
    ensures ExecuteSystem(a) == Some(true) <==> a.exitCode == 0 && HeldThroughTimeout(UntilInactive, a)
    ensures ExecuteSystem(a) == Some(false) <==> a.exitCode != 0 || CancelledWithin(UntilInactive, a)
  {
    WaitOutcome(UntilInactive, a);
  }

  /** `instance_execution` succeeds iff the command exited 0 and the pipeline stayed out of
      TEARDOWN through the whole timeout window; FAILED and OFFLINE do not stop it. */
  lemma InstanceExecutionOutcome(a: Action, setResult: bool)
    ensures (InstanceExecution(a, setResult).Some? && InstanceExecution(a, setResult).value.ok)
            <==> a.exitCode == 0 && HeldThroughTimeout(UntilTeardown, a)
    ensures (InstanceExecution(a, setResult).Some? && !InstanceExecution(a, setResult).value.ok)
            <==> a.exitCode != 0 || CancelledWithin(UntilTeardown, a)
  {
    WaitOutcome(UntilTeardown, a);
  }

  /** With a timeout of 0 the loop can only end by the pipeline leaving its active set,
      so neither variant can ever report success. */
  lemma UnboundedWaitNeverSucceeds(a: Action, setResult: bool)
    requires a.timeout == 0
    ensures ExecuteSystem(a) != Some(true)
    ensures InstanceExecution(a, setResult).Some? ==> !InstanceExecution(a, setResult).value.ok
  {
    ExecuteSystemOutcome(a);
    InstanceExecutionOutcome(a, setResult);
  }

  /** An action started while its pipeline is already in TEARDOWN returns at the first
      tick and fails, whatever its command did. This is what happens to both stop calls
      and to the SUT teardown step once a teardown has set the state to TEARDOWN; the
      TestIt teardown step that would follow is then never run (see
      `Lifecycle.TeardownRecordsFailure`). */
  lemma StartedDuringTeardownFails(a: Action, setResult: bool)
    requires |a.ticks| > 0 && a.ticks[0] == Teardown
    ensures ExecuteSystem(a) == Some(false)
    ensures InstanceExecution(a, setResult) == Some(StepResult(false, Some(false)))
  {
    assert !KeepsWaiting(UntilInactive, a, 0);
    assert !KeepsWaiting(UntilTeardown, a, 0);
  }

  /** The two variants really differ: when the command succeeds and the pipeline never
      reaches TEARDOWN within the window but is observed as FAILED at some tick of it,
      `execute_system` fails while `instance_execution` succeeds. */
  lemma VariantsDiffer(a: Action, setResult: bool)
    requires a.exitCode == 0 && HeldThroughTimeout(UntilTeardown, a)
    requires exists j :: 0 <= j <= a.timeout && a.ticks[j] == Failed
    ensures ExecuteSystem(a) == Some(false)
    ensures InstanceExecution(a, setResult) == Some(StepResult(true, if setResult then Some(true) else None))
  {
    ExecuteSystemOutcome(a);
    InstanceExecutionOutcome(a, setResult);
  }
}

=== FILE: config.dfy ===
/**
 The configuration helpers of the daemon: filling empty settings from the defaults
 (`set_defaults`), turning the list of pipelines or tests into a dictionary keyed by
 tag (`rosparam_list_to_dict`) and expanding `[[key]]` references to other settings
 of the same pipeline (`substitute_config_values`).

 `Index` keys its dictionary by the tag's value as loaded, whatever its type, as the
 daemon does. `SetDefaults` and `SubstituteAll` take dictionaries keyed by tag strings:
 they are applied to pipelines whose tags are taken to be strings.
 */
module Config {
  import opened Options

  /** A configuration value as loaded from YAML: a string, a number or a flag. Lists,
      dictionaries and non-ASCII unicode strings are not represented. */
  datatype Value = Str(s: string) | Int(i: int) | Bool(b: bool)

  /** The empty string, which `set_defaults` treats as "not set". */
  const Empty: Value := Str("")

  /** The errors the helpers raise. */
  datatype ConfigError =
    | MissingKey(key: string)  // KeyError
    | NotAString(key: string)  // TypeError from `str.replace` with a non-string argument

  /** One setting after `set_defaults`: an empty string takes the default when there is a
      non-empty default for that key; a missing default is skipped. */
  function Fill(key: string, v: Value, defaults: map<string, Value>): Value {
    if v == Empty && key in defaults && defaults[key] != Empty then defaults[key] else v
  }

  /** `set_defaults` over every entry of a dictionary of settings. */
  function SetDefaults(params: map<string, map<string, Value>>, defaults: map<string, Value>)
    : (r: map<string, map<string, Value>>)
    ensures r.Keys == params.Keys
    ensures forall p :: p in params ==> r[p].Keys == params[p].Keys
    ensures forall p, k :: p in params && k in params[p] && params[p][k] != Empty ==> r[p][k] == params[p][k]
    ensures forall p, k :: p in params && k in params[p] ==>
              (r[p][k] == Empty <==> params[p][k] == Empty && (k !in defaults || defaults[k] == Empty))
    ensures forall p, k :: p in params && k in params[p] && r[p][k] != params[p][k] ==>
              k in defaults && r[p][k] == defaults[k]
  {
    map p | p in params :: map k | k in params[p] :: Fill(k, params[p][k], defaults)
  }

  /** Filling in defaults a second time changes nothing. */
  lemma SetDefaultsIdempotent(params: map<string, map<string, Value>>, defaults: map<string, Value>)
    ensures SetDefaults(SetDefaults(params, defaults), defaults) == SetDefaults(params, defaults)
  {
    var once := SetDefaults(params, defaults);
    var twice := SetDefaults(once, defaults);
    forall p | p in params
      ensures twice[p] == once[p]
    {
      forall k | k in once[p]
        ensures twice[p][k] == once[p][k]
      {
        assert twice[p][k] == Fill(k, once[p][k], defaults);
      }
    }
  }

  /** `d` indexes `items` by `key`: its keys are the items' values for `key`, each entry
      is stored under its own value, and an item that no later item shadows is found
      under its value. */
  predicate Indexes(d: map<Value, map<string, Value>>, items: seq<map<string, Value>>, key: string)
    requires forall i :: 0 <= i < |items| ==> key in items[i]
  {
    && d.Keys == (set i | 0 <= i < |items| :: items[i][key])
    && (forall v :: v in d ==> key in d[v] && d[v][key] == v)
    && (forall i :: 0 <= i < |items| && (forall j :: i < j < |items| ==> items[j][key] != items[i][key]) ==>
          d[items[i][key]] == items[i])
  }

  /** `rosparam_list_to_dict` on a list that is present: each item is stored under its
      value for `key`, a later item replacing an earlier one with the same value. */
  function Index(items: seq<map<string, Value>>, key: string): (r: Result<map<Value, map<string, Value>>, ConfigError>)
    decreases |items|
    ensures r.Err? <==> exists i :: 0 <= i < |items| && key !in items[i]
    ensures r.Err? ==> r.error == MissingKey(key)
    ensures r.Ok? ==> Indexes(r.value, items, key)
  {
    if items == [] then Ok(map[])
    else
      var init := items[..|items| - 1];
      var last := items[|items| - 1];
      assert forall i :: 0 <= i < |init| ==> init[i] == items[i];
      match Index(init, key)
      case Err(e) => Err(e)
      case Ok(d) =>
        if key !in last then Err(MissingKey(key))
        else
          IndexStep(d, init, last, key);
          assert init + [last] == items;
          Ok(d[last[key] := last])
  }

  /** Storing one more item keeps the index: its value now names it, and every earlier
      item with a different value keeps its place. */
  lemma IndexStep(d: map<Value, map<string, Value>>, init: seq<map<string, Value>>,
                  last: map<string, Value>, key: string)
    requires forall i :: 0 <= i < |init| ==> key in init[i]
    requires key in last
    requires Indexes(d, init, key)
    ensures forall i :: 0 <= i < |init + [last]| ==> key in (init + [last])[i]
    ensures Indexes(d[last[key] := last], init + [last], key)
  {
    var items := init + [last];
    var r := d[last[key] := last];
    assert forall i :: 0 <= i < |init| ==> items[i] == init[i];
    assert items[|init|] == last;
    assert r.Keys == (set i | 0 <= i < |items| :: items[i][key]) by {
      forall v | v in r.Keys ensures v in (set i | 0 <= i < |items| :: items[i][key]) {
        if v != last[key] {
          var i :| 0 <= i < |init| && init[i][key] == v;
          assert items[i][key] == v;
        } else {
          assert items[|init|][key] == v;
        }
      }
    }
    forall i | 0 <= i < |items| && (forall j :: i < j < |items| ==> items[j][key] != items[i][key])
      ensures r[items[i][key]] == items[i]
    {
      if i < |init| {
        assert items[|init|][key] != items[i][key];
        assert forall j :: i < j < |init| ==> init[j][key] != init[i][key] by {
          forall j | i < j < |init| ensures init[j][key] != init[i][key] {
            assert items[j] == init[j];
          }
        }
      }
    }
  }

  /** `rosparam_list_to_dict`: no list (the parameter is missing) gives None. */
  function ListToDict(items: Option<seq<map<string, Value>>>, key: string)
    : (r: Result<Option<map<Value, map<string, Value>>>, ConfigError>)
    ensures items.None? ==> r == Ok(None)
    ensures items.Some? ==> (r.Err? <==> exists i :: 0 <= i < |items.value| && key !in items.value[i])
    ensures items.Some? && r.Ok? ==> r.value.Some?
    ensures items.Some? && r.Ok? ==>
              (forall i :: 0 <= i < |items.value| ==> key in items.value[i])
              && Indexes(r.value.value, items.value, key)
  {
    match items
    case None => Ok(None)
    case Some(list) =>
      match Index(list, key)
      case Err(e) => Err(e)
      case Ok(d) => Ok(Some(d))
  }

  /** With distinct tags every item is found under its own tag. */
  lemma IndexDistinctKeepsAll(items: seq<map<string, Value>>, key: string)
    requires forall i :: 0 <= i < |items| ==> key in items[i]
    requires forall i, j :: 0 <= i < j < |items| ==> items[i][key] != items[j][key]
    ensures Index(items, key).Ok?
    ensures forall i :: 0 <= i < |items| ==> Index(items, key).value[items[i][key]] == items[i]
  {
  }

  /** Whether a "]]" starts at position k. */
  predicate ClosesAt(s: string, k: int) {
    0 <= k && k + 1 < |s| && s[k] == ']' && s[k + 1] == ']'
  }

  /** Whether a line break lies at some position in [j, k). */
  predicate BreakBetween(s: string, j: int, k: int) {
    exists n :: j <= n < k && 0 <= n < |s| && s[n] == '\n'
  }

  /** The end of the shortest `.*?\]\]` continuation from position j: the first "]]" at or
      after j, provided no line break comes first (`.` does not match one). */
  function FindClose(s: string, j: nat): (r: Option<nat>)
    requires j <= |s|
    decreases |s| - j
    ensures r.Some? ==> j <= r.value && ClosesAt(s, r.value)
    ensures r.Some? ==> forall k :: j <= k < r.value ==> s[k] != '\n' && !ClosesAt(s, k)
    ensures r.None? ==> forall k :: j <= k && ClosesAt(s, k) ==> BreakBetween(s, j, k)
  {
    if j + 2 > |s| then None
    else if ClosesAt(s, j) then Some(j)
    else if s[j] == '\n' then
      assert forall k :: j < k && ClosesAt(s, k) ==> BreakBetween(s, j, k) by {
        forall k | j < k && ClosesAt(s, k) ensures BreakBetween(s, j, k) {
          assert j <= j < k && s[j] == '\n';
        }
      }
      None
    else FindClose(s, j + 1)
  }

  /** Whether position i starts a "[[" */
  predicate OpensAt(s: string, i: int) {
    0 <= i && i + 1 < |s| && s[i] == '[' && s[i + 1] == '['
  }

  /** Whether the pattern matches at position k: a "[[" with a "]]" after it on the same line. */
  predicate MatchesAt(s: string, k: int) {
    OpensAt(s, k) && FindClose(s, k + 2).Some?
  }

  /** The leftmost position at or after i where the pattern matches. */
  function NextMatch(s: string, i: nat): (r: Option<nat>)
    requires i <= |s|
    decreases |s| - i
    ensures r.Some? ==> i <= r.value && MatchesAt(s, r.value)
    ensures r.Some? ==> forall k :: i <= k < r.value ==> !MatchesAt(s, k)
    ensures r.None? ==> forall k :: i <= k ==> !MatchesAt(s, k)
  {
    if i + 2 > |s| then None
    else if MatchesAt(s, i) then Some(i)
    else NextMatch(s, i + 1)
  }

  /** The shape of a placeholder: "[[", then a run with no line break and no "]]" in it
      (the lazy `.*?` stops at the first "]]"), then "]]". */
  predicate Bracketed(m: string) {
    && |m| >= 4
    && m[0] == '[' && m[1] == '[' && m[|m| - 2] == ']' && m[|m| - 1] == ']'
    && forall n :: 2 <= n < |m| - 2 ==> m[n] != '\n' && !ClosesAt(m, n)
  }

  /** The text of the match starting at k has the shape of a placeholder. */
  lemma MatchIsBracketed(s: string, k: nat, j: nat)
    requires OpensAt(s, k) && FindClose(s, k + 2) == Some(j)
    ensures j + 2 <= |s| && Bracketed(s[k..j + 2])
  {
    var m := s[k..j + 2];
    forall n | 2 <= n < |m| - 2 ensures m[n] != '\n' && !ClosesAt(m, n) {
      assert m[n] == s[k + n] && m[n + 1] == s[k + n + 1];
      assert k + 2 <= k + n < j;
    }
  }

  /** `re.findall(r'(\[\[.*?\]\])', s)` from position i: the non-overlapping shortest
      matches, left to right. */
  function Placeholders(s: string, i: nat): (ms: seq<string>)
    requires i <= |s|
    decreases |s| - i
    ensures forall m :: m in ms ==> Bracketed(m) && OccursFrom(s, m, i)
    ensures ms == [] <==> NextMatch(s, i).None?
  {
    if i + 2 > |s| then []
    else if MatchesAt(s, i) then
      var j := FindClose(s, i + 2).value;
      var rest := Placeholders(s, j + 2);
      OccursFromEarlier(s, rest, i, j + 2);
      MatchIsBracketed(s, i, j);
      assert OccursAt(s, s[i..j + 2], i);
      [s[i..j + 2]] + rest
    else
      assert NextMatch(s, i) == NextMatch(s, i + 1);
      Placeholders(s, i + 1)
  }

  /** One step of the scan at a match: it is taken and the scan resumes after its end. */
  lemma ScanTakesMatch(s: string, i: nat, j: nat)
    requires OpensAt(s, i) && FindClose(s, i + 2) == Some(j)
    ensures Placeholders(s, i) == [s[i..j + 2]] + Placeholders(s, j + 2)
  {
  }

  /** One step of the scan where no match starts: the scan moves on by one position. */
  lemma ScanSkips(s: string, i: nat)
    requires i + 2 <= |s| && !MatchesAt(s, i)
    ensures Placeholders(s, i) == Placeholders(s, i + 1)
    ensures NextMatch(s, i) == NextMatch(s, i + 1)
  {
  }

  /** The end of the match that starts at k. */
  function MatchEnd(s: string, k: nat): (e: nat)
    requires MatchesAt(s, k)
    ensures k + 4 <= e <= |s| && ClosesAt(s, e - 2)
  {
    FindClose(s, k + 2).value + 2
  }

  /** The matches are found left to right, none skipped: the first is the leftmost match,
      and the rest are the matches after its end. */
  lemma {:induction false} PlaceholdersLeftmost(s: string, i: nat)
    requires i <= |s|
    decreases |s| - i
    ensures NextMatch(s, i).Some? ==>
              var k := NextMatch(s, i).value;
              Placeholders(s, i) == [s[k..MatchEnd(s, k)]] + Placeholders(s, MatchEnd(s, k))
  {
    if i + 2 <= |s| {
      if MatchesAt(s, i) {
        assert NextMatch(s, i) == Some(i);
        ScanTakesMatch(s, i, FindClose(s, i + 2).value);
      } else {
        LeftmostAfterSkip(s, i);
      }
    }
  }

  lemma {:induction false} LeftmostAfterSkip(s: string, i: nat)
    requires i + 2 <= |s| && !MatchesAt(s, i)
    decreases |s| - i, 0
    ensures NextMatch(s, i).Some? ==>
              var k := NextMatch(s, i).value;
              Placeholders(s, i) == [s[k..MatchEnd(s, k)]] + Placeholders(s, MatchEnd(s, k))
  {
    ScanSkips(s, i);
    PlaceholdersLeftmost(s, i + 1);
  }

  /** Whether `pat` occurs in s at position k. */
  predicate OccursAt(s: string, pat: string, k: int) {
    0 <= k && k + |pat| <= |s| && s[k..k + |pat|] == pat
  }

  /** Whether `pat` occurs in s at some position at or after i. */
  predicate OccursFrom(s: string, pat: string, i: int) {
    exists p :: i <= p <= |s| && OccursAt(s, pat, p)
  }

  /** An occurrence at or after j is one at or after any i <= j. */
  lemma OccursFromEarlier(s: string, ms: seq<string>, i: int, j: int)
    requires i <= j
    requires forall m :: m in ms ==> OccursFrom(s, m, j)
    ensures forall m :: m in ms ==> OccursFrom(s, m, i)
  {
    forall m | m in ms ensures OccursFrom(s, m, i) {
      var p :| j <= p <= |s| && OccursAt(s, m, p);
    }
  }

  /** The first position at or after i where `pat` occurs in s. */
  function IndexOf(s: string, pat: string, i: nat): (r: Option<nat>)
    requires i <= |s|
    decreases |s| - i
    ensures r.Some? ==> i <= r.value && OccursAt(s, pat, r.value)
    ensures r.Some? ==> forall k :: i <= k < r.value ==> !OccursAt(s, pat, k)
    ensures r.None? ==> forall k :: i <= k ==> !OccursAt(s, pat, k)
  {
    if i + |pat| > |s| then None
    else if OccursAt(s, pat, i) then Some(i)
    else IndexOf(s, pat, i + 1)
  }

  /** `s.replace(pat, rep, 1)`: replace the first occurrence, if there is one. */
  function ReplaceFirst(s: string, pat: string, rep: string): (r: string)
    ensures IndexOf(s, pat, 0).None? ==> r == s
    ensures IndexOf(s, pat, 0).Some? ==>
              var i := IndexOf(s, pat, 0).value;
              |r| == |s| - |pat| + |rep| && r[..i] == s[..i] && r[i..i + |rep|] == rep && r[i + |rep|..] == s[i + |pat|..]
  {
    match IndexOf(s, pat, 0)
    case None => s
    case Some(i) => s[..i] + rep + s[i + |pat|..]
  }

  /** The key a placeholder names: `replacement[2:-2]`. */
  function NameOf(m: string): string
    requires |m| >= 4
  {
    m[2..|m| - 2]
  }

  /** A placeholder whose name is not a setting of the pipeline (KeyError) or names one
      that is not a string (TypeError from `str.replace`). */
  predicate BadReference(entry: map<string, Value>, m: string)
    requires |m| >= 4
  {
    NameOf(m) !in entry || !entry[NameOf(m)].Str?
  }

  /** Two versions of a pipeline's settings with the same keys, each a string in both or in neither. */
  predicate SameShape(entry: map<string, Value>, next: map<string, Value>) {
    next.Keys == entry.Keys && forall k :: k in entry ==> (next[k].Str? <==> entry[k].Str?)
  }

  /** Expanding a setting only rewrites strings into strings, so which references are bad
      does not change along the way. */
  lemma BadReferenceKept(entry: map<string, Value>, next: map<string, Value>, ms: seq<string>)
    requires SameShape(entry, next)
    requires forall m :: m in ms ==> |m| >= 4
    ensures forall m :: m in ms ==> (BadReference(next, m) <==> BadReference(entry, m))
  {
  }

  /** The replacements of one setting: each placeholder in `ms`, in order, is replaced
      (first occurrence) by the current value of the key it names. */
  function SubstituteMatches(entry: map<string, Value>, key: string, ms: seq<string>)
    : (r: Result<map<string, Value>, ConfigError>)
    requires key in entry && entry[key].Str?
    requires forall m :: m in ms ==> |m| >= 4
    decreases |ms|
    ensures r.Ok? ==> SameShape(entry, r.value)
    ensures r.Ok? ==> forall k :: k in entry && k != key ==> r.value[k] == entry[k]
    ensures ms == [] ==> r == Ok(entry)
    ensures r.Err? <==> exists m :: m in ms && BadReference(entry, m)
  {
    if ms == [] then Ok(entry)
    else
      var name := NameOf(ms[0]);
      if name !in entry then Err(MissingKey(name))
      else if !entry[name].Str? then Err(NotAString(name))
      else
        var next := entry[key := Str(ReplaceFirst(entry[key].s, ms[0], entry[name].s))];
        BadReferenceKept(entry, next, ms[1..]);
        assert forall m :: m in ms ==> m == ms[0] || m in ms[1..];
        SubstituteMatches(next, key, ms[1..])
  }

  /** The placeholders of a setting, none for a value that is not a string. */
  function PlaceholdersOf(v: Value): (ms: seq<string>)
    ensures forall m :: m in ms ==> |m| >= 4
    ensures !v.Str? ==> ms == []
  {
    if v.Str? then Placeholders(v.s, 0) else []
  }

  /** Some setting among `keys` holds a placeholder with a bad reference. */
  predicate Fails(entry: map<string, Value>, keys: seq<string>)
    requires forall k :: k in keys ==> k in entry
  {
    exists k, m :: k in keys && m in PlaceholdersOf(entry[k]) && BadReference(entry, m)
  }

  /** `substitute_config_values` on one pipeline's settings, `keys` being the iteration
      order of its dictionary. It raises exactly when some setting refers to a setting the
      pipeline lacks or to one that is not a string. Settings without a placeholder keep
      their value. */
  function SubstituteEntry(entry: map<string, Value>, keys: seq<string>)
    : (r: Result<map<string, Value>, ConfigError>)
    requires forall k :: k in keys ==> k in entry
    requires Distinct(keys)
    decreases |keys|
    ensures r.Ok? ==> SameShape(entry, r.value)
    ensures r.Ok? ==> forall k :: k in entry && PlaceholdersOf(entry[k]) == [] ==> r.value[k] == entry[k]
    ensures r.Ok? ==> forall k :: k in entry && k !in keys ==> r.value[k] == entry[k]
    ensures r.Err? <==> Fails(entry, keys)
  {
    if keys == [] then Ok(entry)
    else
      var k := keys[0];
      var step := if entry[k].Str? then SubstituteMatches(entry, k, Placeholders(entry[k].s, 0)) else Ok(entry);
      match step
      case Err(e) =>
        assert Fails(entry, keys);
        Err(e)
      case Ok(next) =>
        assert forall x :: x in entry && PlaceholdersOf(entry[x]) == [] ==> next[x] == entry[x];
        assert Fails(entry, keys) <==> Fails(next, keys[1..]) by {
          FailsAfterStep(entry, next, keys);
        }
        SubstituteEntry(next, keys[1..])
  }

  /** After the first setting of `keys` was expanded without error, the rest fail on the
      new settings exactly when the whole list fails on the old ones. */
  lemma FailsAfterStep(entry: map<string, Value>, next: map<string, Value>, keys: seq<string>)
    requires forall k :: k in keys ==> k in entry
    requires keys != [] && Distinct(keys)
    requires SameShape(entry, next)
    requires forall x :: x in entry && x != keys[0] ==> next[x] == entry[x]
    requires !(exists m :: m in PlaceholdersOf(entry[keys[0]]) && BadReference(entry, m))
    ensures Fails(entry, keys) <==> Fails(next, keys[1..])
  {
    forall x | x in keys[1..]
      ensures next[x] == entry[x]
    {
      var i :| 0 <= i < |keys[1..]| && keys[1..][i] == x;
      assert keys[i + 1] != keys[0];
    }
    forall x | x in keys[1..]
      ensures forall m :: m in PlaceholdersOf(entry[x]) ==> (BadReference(next, m) <==> BadReference(entry, m))
    {
      BadReferenceKept(entry, next, PlaceholdersOf(entry[x]));
    }
    assert forall x :: x in keys <==> x == keys[0] || x in keys[1..];
  }

  /** `substitute_config_values` over all pipelines, `order` being the iteration order of
      the pipelines and `keyOrder[p]` that of pipeline p's settings. It raises exactly when
      some visited pipeline's settings do; the first error raised is the result. */
  function SubstituteAll(params: map<string, map<string, Value>>, order: seq<string>,
                         keyOrder: map<string, seq<string>>)
    : (r: Result<map<string, map<string, Value>>, ConfigError>)
    requires forall p :: p in order ==> p in params && p in keyOrder
    requires forall p :: p in order ==> forall k :: k in keyOrder[p] ==> k in params[p]
    requires Distinct(order)
    requires forall p :: p in order ==> Distinct(keyOrder[p])
    decreases |order|
    ensures r.Ok? ==> r.value.Keys == params.Keys
    ensures r.Ok? ==> forall p :: p in params ==> r.value[p].Keys == params[p].Keys
    ensures r.Ok? ==> forall p :: p in params && p !in order ==> r.value[p] == params[p]
    ensures r.Err? <==> exists p :: p in order && Fails(params[p], keyOrder[p])
  {
    if order == [] then Ok(params)
    else
      var p := order[0];
      match SubstituteEntry(params[p], keyOrder[p])
      case Err(e) => Err(e)
      case Ok(entry) =>
        var next := params[p := entry];
        assert forall q :: q in order[1..] ==> q != p && next[q] == params[q] by {
          forall q | q in order[1..] ensures q != p {
            var i :| 0 <= i < |order[1..]| && order[1..][i] == q;
            assert order[i + 1] != order[0];
          }
        }
        assert forall q :: q in order <==> q == p || q in order[1..];
        SubstituteAll(next, order[1..], keyOrder)
  }

  lemma ExampleClose()
    ensures FindClose("[[name]].local", 2) == Some(6)
  {
    var v := "[[name]].local";
    assert ClosesAt(v, 6);
    assert !ClosesAt(v, 2) && !ClosesAt(v, 3) && !ClosesAt(v, 4) && !ClosesAt(v, 5);
  }

  lemma ExampleTail()
    ensures Placeholders("[[name]].local", 8) == []
    ensures Placeholders("box", 0) == []
  {
    var v := "[[name]].local";
    assert forall k :: 8 <= k < |v| ==> !OpensAt(v, k);
    assert forall k :: 0 <= k < 3 ==> !OpensAt("box", k);
  }

  lemma ExamplePlaceholders()
    ensures Placeholders("[[name]].local", 0) == ["[[name]]"]
    ensures Placeholders("box", 0) == []
  {
    var v := "[[name]].local";
    ExampleClose();
    ExampleTail();
    assert OpensAt(v, 0);
    assert v[0..8] == "[[name]]";
  }

  lemma ExampleName()
    ensures NameOf("[[name]]") == "name"
  {
    var m := "[[name]]";
    assert m[2] == 'n' && m[3] == 'a' && m[4] == 'm' && m[5] == 'e';
    assert m[2..6] == ['n', 'a', 'm', 'e'];
  }

  lemma ExampleReplace()
    ensures ReplaceFirst("[[name]].local", "[[name]]", "box") == "box.local"
  {
    var v := "[[name]].local";
    assert v[0..8] == "[[name]]";
    assert OccursAt(v, "[[name]]", 0);
    assert v[8..] == ".local";
  }

  lemma ExampleFirstKey()
    ensures SubstituteMatches(map["host" := Str("[[name]].local"), "name" := Str("box")], "host", ["[[name]]"])
            == Ok(map["host" := Str("box.local"), "name" := Str("box")])
  {
    ExampleReplace();
    ExampleName();
    var entry := map["host" := Str("[[name]].local"), "name" := Str("box")];
    assert entry["host" := Str("box.local")] == map["host" := Str("box.local"), "name" := Str("box")];
  }

  lemma ExampleSecondKey()
    ensures SubstituteEntry(map["host" := Str("box.local"), "name" := Str("box")], ["name"])
            == Ok(map["host" := Str("box.local"), "name" := Str("box")])
  {
    ExamplePlaceholders();
  }

  /** A setting that refers to another one is expanded with that setting's value. */
  lemma SubstitutionExample()
    ensures SubstituteEntry(map["host" := Str("[[name]].local"), "name" := Str("box")], ["host", "name"])
            == Ok(map["host" := Str("box.local"), "name" := Str("box")])
  {
    ExamplePlaceholders();
    ExampleFirstKey();
    ExampleSecondKey();
    assert ["host", "name"][1..] == ["name"];
  }

  /** A reference to a key the pipeline does not have raises a KeyError. */
  lemma MissingReferenceFails()
    ensures SubstituteEntry(map["host" := Str("[[name]]")], ["host"]) == Err(MissingKey("name"))
  {
    var v := "[[name]]";
    assert ClosesAt(v, 6);
    assert !ClosesAt(v, 2) && !ClosesAt(v, 3) && !ClosesAt(v, 4) && !ClosesAt(v, 5);
    assert FindClose(v, 2) == Some(6);
    assert v[0..8] == v;
    assert Placeholders(v, 8) == [];
    assert Placeholders(v, 0) == ["[[name]]"];
    assert NameOf("[[name]]") == "name";
  }
}

=== FILE: fan_out.dfy ===
/**
 The fan-out dispatcher (`multithreaded_command`, used by `handle_bringup` and
 `handle_teardown`): put every selected pipeline in the command's pre-state, start
 one `thread_worker` per pipeline, then poll once per second, removing one finished
 worker per tick and folding its result into the overall answer.
 */
module FanOut {
  import opened Options
  import opened Pipelines
  import opened BoundedWait
  import opened Lifecycle
  import opened Polling

  /** The two bulk commands. */
  datatype Command = BringUp | TearDown

  /** The state set on each selected pipeline before its worker starts (`pre_state`). */
  function PreState(c: Command): State {
    match c
    case BringUp => Bringup
    case TearDown => Teardown
  }

  /** The `post_states` the command hands to its workers. */
  function Post(c: Command): PostStates {
    match c
    case BringUp => BringupPost
    case TearDown => TeardownPost
  }

  /** A request argument selects a pipeline when it is empty or equal to its tag. */
  predicate Selected(filter: string, tag: string) {
    filter == "" || filter == tag
  }

  /** The registry once the dispatcher has set each selected pipeline to the pre-state,
      whatever state it was in before. */
  function Start(p: Pool, filter: string, c: Command): (q: Pool)
    ensures q.tags == p.tags
    ensures forall t :: t in p.tags && Selected(filter, t) ==> StateOf(q, t) == PreState(c)
    ensures forall t :: !(t in p.tags && Selected(filter, t)) ==> StateOf(q, t) == StateOf(p, t)
  {
    var chosen := set t | t in p.tags && Selected(filter, t);
    Pool(p.tags, map t | t in p.states.Keys + chosen :: if t in chosen then PreState(c) else p.states[t])
  }

  /** The line the dispatcher adds to its message for a worker that reported False. */
  function FailureLine(tag: string): string {
    tag + FinishedWithFalse + "\n"
  }

  /** The text after the tag, as `'%s finished with %r'` renders a False result. */
  const FinishedWithFalse: string := " finished with False"

  /** The message after the workers in `removed` were collected, in that order. */
  function FailureMessage(removed: seq<string>, outcome: map<string, bool>): string
    requires forall x :: x in removed ==> x in outcome
    decreases |removed|
  {
    if removed == [] then ""
    else
      var last := removed[|removed| - 1];
      FailureMessage(removed[..|removed| - 1], outcome) + (if outcome[last] then "" else FailureLine(last))
  }

  /** The message is empty exactly when every collected worker succeeded. */
  lemma {:induction false} FailureMessageEmptyIffAllPass(removed: seq<string>, outcome: map<string, bool>)
    requires forall x :: x in removed ==> x in outcome
    ensures FailureMessage(removed, outcome) == "" <==> forall x :: x in removed ==> outcome[x]
    decreases |removed|
  {
    if removed != [] {
      var init := removed[..|removed| - 1];
      var last := removed[|removed| - 1];
      assert removed == init + [last];
      FailureMessageEmptyIffAllPass(init, outcome);
      assert forall x :: x in removed <==> x in init || x == last;
    }
  }

  /** The number of line breaks in a string. */
  function Newlines(s: string): nat {
    if s == [] then 0 else Newlines(s[1..]) + (if s[0] == '\n' then 1 else 0)
  }

  /** The number of collected workers that reported False. */
  function Failures(removed: seq<string>, outcome: map<string, bool>): nat
    requires forall x :: x in removed ==> x in outcome
  {
    if removed == [] then 0
    else Failures(removed[..|removed| - 1], outcome) + (if outcome[removed[|removed| - 1]] then 0 else 1)
  }

  lemma {:induction false} NewlinesAppend(a: string, b: string)
    ensures Newlines(a + b) == Newlines(a) + Newlines(b)
    decreases |a|
  {
    if a == [] {
      assert a + b == b;
    } else {
      assert (a + b)[0] == a[0];
      assert (a + b)[1..] == a[1..] + b;
      NewlinesAppend(a[1..], b);
    }
  }

  /** A failure line adds exactly one line break when the tag has none. */
  lemma NewlinesOfFailureLine(tag: string)
    requires forall i :: 0 <= i < |tag| ==> tag[i] != '\n'
    ensures Newlines(FailureLine(tag)) == 1
  {
    NewlinesOfTag(tag);
    NewlinesOfTag(FinishedWithFalse);
    NewlinesAppend(tag, FinishedWithFalse);
    NewlinesAppend(tag + FinishedWithFalse, "\n");
    assert Newlines("\n") == 1 by {
      assert "\n"[1..] == [];
    }
  }

  lemma {:induction false} NewlinesOfTag(tag: string)
    requires forall i :: 0 <= i < |tag| ==> tag[i] != '\n'
    ensures Newlines(tag) == 0
    decreases |tag|
  {
    if tag != [] {
      NewlinesOfTag(tag[1..]);
    }
  }

  /** With tags free of line breaks, the message holds exactly one line per failed worker. */
  lemma {:induction false} OneLinePerFailure(removed: seq<string>, outcome: map<string, bool>)
    requires forall x :: x in removed ==> x in outcome
    requires forall x, i :: x in removed && 0 <= i < |x| ==> x[i] != '\n'
    ensures Newlines(FailureMessage(removed, outcome)) == Failures(removed, outcome)
    decreases |removed|
  {
    if removed != [] {
      var init := removed[..|removed| - 1];
      var last := removed[|removed| - 1];
      OneLinePerFailure(init, outcome);
      var line := if outcome[last] then "" else FailureLine(last);
      NewlinesAppend(FailureMessage(init, outcome), line);
      if !outcome[last] {
        NewlinesOfFailureLine(last);
      } else {
        assert Newlines(line) == 0;
      }
    }
  }

  /** The per-pipeline record (`pipelines[tag][prefix]`) after the workers in `removed`
      were collected, starting from `prior`. */
  function Record(prior: map<string, bool>, removed: seq<string>, outcome: map<string, bool>): (m: map<string, bool>)
    requires forall x :: x in removed ==> x in outcome
    decreases |removed|
    ensures m.Keys == prior.Keys + set x | x in removed
    ensures forall x :: x in removed ==> m[x] == outcome[x]
    ensures forall x :: x in prior && x !in removed ==> m[x] == prior[x]
  {
    if removed == [] then prior
    else
      var init := removed[..|removed| - 1];
      var last := removed[|removed| - 1];
      assert forall x :: x in removed <==> x in init || x == last;
      Record(prior, init, outcome)[last := outcome[last]]
  }

  /** Collecting one more worker appends its failure line (if any) and records its result. */
  lemma CollectOne(prior: map<string, bool>, removed: seq<string>, tag: string, outcome: map<string, bool>)
    requires forall x :: x in removed ==> x in outcome
    requires tag in outcome
    ensures forall x :: x in removed + [tag] ==> x in outcome
    ensures FailureMessage(removed + [tag], outcome)
            == FailureMessage(removed, outcome) + (if outcome[tag] then "" else FailureLine(tag))
    ensures Record(prior, removed + [tag], outcome) == Record(prior, removed, outcome)[tag := outcome[tag]]
  {
    assert (removed + [tag])[..|removed|] == removed;
  }

  /** The collection loop of `multithreaded_command`. `order` is the iteration order of
      the workers' dictionary, `outcome[tag]` the value the worker puts in its `result`
      entry and `finishes[tag]` the tick from which it is there; `prior` is the per-pipeline
      record of this command before the call. The loop returns only once every worker has
      been removed; `removed` is the order in which they were. */
  method Aggregate(order: seq<string>, outcome: map<string, bool>, finishes: map<string, nat>,
                   prior: map<string, bool>)
    returns (result: bool, message: string, recorded: map<string, bool>, removed: seq<string>)
    requires forall x :: x in order ==> x in outcome && x in finishes
    ensures multiset(removed) == multiset(order)
    ensures forall x :: x in removed <==> x in order
    ensures result <==> forall x :: x in order ==> outcome[x]
    ensures message == FailureMessage(removed, outcome)
    ensures message == "" <==> result
    ensures recorded == Record(prior, removed, outcome)
  {
    var remaining := order;
    var t: nat := 0;
    ghost var horizon := Latest(order, finishes);
    result, message, recorded, removed := true, "", prior, [];
    while |remaining| > 0
      invariant multiset(remaining) + multiset(removed) == multiset(order)
      invariant forall x :: x in remaining ==> x in order
      invariant forall x :: x in removed ==> x in order
      invariant forall x :: x in remaining ==> x in finishes && finishes[x] <= horizon
      invariant result <==> forall x :: x in removed ==> outcome[x]
      invariant message == FailureMessage(removed, outcome)
      invariant recorded == Record(prior, removed, outcome)
      decreases (if t <= horizon then horizon - t else 0) + |remaining|
    {
      var f := FirstDone(remaining, finishes, t, 0);
      if f.Some? {
        var tag := remaining[f.value];
        CollectOne(prior, removed, tag, outcome);
        if !outcome[tag] {
          message := message + FailureLine(tag);
          result := false;
        }
        recorded := recorded[tag := outcome[tag]];
        removed := removed + [tag];
        remaining := RemoveAt(remaining, f.value);
      } else {
        assert !Done(finishes, remaining[0], t);
      }
      t := t + 1;
    }
    assert forall x :: x in order ==> x in removed by {
      forall x | x in order ensures x in removed {
        assert x in multiset(order);
      }
    }
    FailureMessageEmptyIffAllPass(removed, outcome);
  }

  /** The inputs of one pipeline's worker: its two steps and the tick from which its
      result is visible to the dispatcher. */
  datatype WorkerInputs = WorkerInputs(sut: Action, testIt: Action, finishedAt: nat)

  /** The worker the command runs on one pipeline. */
  function WorkerOf(w: WorkerInputs, c: Command): Option<WorkerResult> {
    ThreadWorker(w.sut, w.testIt, Post(c))
  }

  /** The answer of a completed dispatch: the response's (result, message), the registry
      with the states the workers published, and the per-pipeline record for the command. */
  datatype Dispatched = Dispatched(result: bool, message: string, pool: Pool, recorded: map<string, bool>)

  /** The results of the workers of all selected pipelines, or None while one of them
      is still blocked. */
  function RunWorkers(p: Pool, filter: string, c: Command, inputs: map<string, WorkerInputs>)
    : (r: Option<map<string, WorkerResult>>)
    requires forall t :: t in p.tags && Selected(filter, t) ==> t in inputs
    ensures r.None? <==> exists t :: t in p.tags && Selected(filter, t) && WorkerOf(inputs[t], c).None?
    ensures r.Some? ==> forall t :: t in p.tags && Selected(filter, t) ==>
                          t in r.value && Some(r.value[t]) == WorkerOf(inputs[t], c)
  {
    var chosen := set t | t in p.tags && Selected(filter, t);
    if exists t :: t in chosen && WorkerOf(inputs[t], c).None? then None
    else Some(map t | t in chosen :: WorkerOf(inputs[t], c).value)
  }

  /** The registry once every selected pipeline's worker has published its final state. */
  function Publish(p: Pool, filter: string, done: map<string, WorkerResult>): (q: Pool)
    requires forall t :: t in p.tags && Selected(filter, t) ==> t in done
    ensures q.tags == p.tags
    ensures forall t :: t in p.tags && Selected(filter, t) ==> StateOf(q, t) == done[t].finalState
    ensures forall t :: !(t in p.tags && Selected(filter, t)) ==> StateOf(q, t) == StateOf(p, t)
  {
    var chosen := set t | t in p.tags && Selected(filter, t);
    Pool(p.tags, map t | t in p.states.Keys + chosen :: if t in chosen then done[t].finalState else p.states[t])
  }

  /** `multithreaded_command` end to end, over a registry whose tags are distinct (one
      worker entry per pipeline). None: some selected worker is still blocked, so the
      dispatcher is still waiting. */
  method Dispatch(p: Pool, filter: string, c: Command, inputs: map<string, WorkerInputs>,
                  prior: map<string, bool>)
    returns (r: Option<Dispatched>)
    requires forall t :: t in p.tags && Selected(filter, t) ==> t in inputs
    requires Distinct(p.tags)
    ensures r.None? <==> exists t :: t in p.tags && Selected(filter, t) && WorkerOf(inputs[t], c).None?
    ensures r.Some? ==> r.value.pool.tags == p.tags
    ensures r.Some? ==> forall t :: t in p.tags && Selected(filter, t) ==>
                          StateOf(r.value.pool, t) == WorkerOf(inputs[t], c).value.finalState
    ensures r.Some? ==> forall t :: !(t in p.tags && Selected(filter, t)) ==>
                          StateOf(r.value.pool, t) == StateOf(p, t)
    ensures r.Some? ==> (r.value.result <==> forall t :: t in p.tags && Selected(filter, t) ==>
                                               WorkerOf(inputs[t], c).value.record == Some(true))
    ensures r.Some? ==> forall t :: t in p.tags && Selected(filter, t) ==>
                          t in r.value.recorded
                          && r.value.recorded[t] == (WorkerOf(inputs[t], c).value.record == Some(true))
    ensures r.Some? ==> forall t :: t in prior && !(t in p.tags && Selected(filter, t)) ==>
                          t in r.value.recorded && r.value.recorded[t] == prior[t]
    ensures r.Some? ==> (r.value.message == "" <==> r.value.result)
    ensures r.Some? && (forall t :: t in p.tags ==> !Selected(filter, t)) ==> r.value.result
  {
    var started := Start(p, filter, c);
    var workers := RunWorkers(p, filter, c, inputs);
    if workers.None? {
      return None;
    }
    var done := workers.value;
    var sel := Filter(p.tags, filter);
    var outcome := map t | t in sel :: done[t].record == Some(true);
    var finishes := map t | t in sel :: inputs[t].finishedAt;
    var result, message, recorded, removed := Aggregate(sel, outcome, finishes, prior);
    return Some(Dispatched(result, message, Publish(started, filter, done), recorded));
  }

  /** The selected tags in iteration order. */
  function Filter(tags: seq<string>, filter: string): (r: seq<string>)
    ensures forall t :: t in r <==> t in tags && Selected(filter, t)
    ensures filter == "" ==> r == tags
  {
    if tags == [] then []
    else (if Selected(filter, tags[0]) then [tags[0]] else []) + Filter(tags[1..], filter)
  }

  /** A completed bring-up leaves every selected pipeline READY or FAILED, READY exactly
      for those whose worker reported success; a completed teardown leaves every selected
      pipeline OFFLINE. */
  lemma DispatchFinalStates(p: Pool, filter: string, inputs: map<string, WorkerInputs>, t: string)
    requires t in p.tags && Selected(filter, t) && t in inputs
    ensures WorkerOf(inputs[t], TearDown).Some? ==> WorkerOf(inputs[t], TearDown).value.finalState == Offline
    ensures WorkerOf(inputs[t], BringUp).Some? ==>
              var w := WorkerOf(inputs[t], BringUp).value;
              (w.finalState == Ready || w.finalState == Failed)
              && (w.finalState == Ready <==> w.record == Some(true))
  {
  }
}

=== FILE: lifecycle.dfy ===
/**
 The bring-up / teardown worker of one pipeline (`thread_worker`): run the SUT step,
 then, only if it succeeded, the TestIt step, and publish the post-state that matches
 the outcome.
 */
module Lifecycle {
  import opened Options
  import opened Pipelines
  import opened BoundedWait

  /** The states a worker publishes on success and on failure (`post_states`). */
  datatype PostStates = PostStates(onSuccess: State, onFailure: State)

  /** `handle_bringup`: READY when both steps succeed, FAILED otherwise. */
  const BringupPost: PostStates := PostStates(Ready, Failed)

  /** `handle_teardown`: OFFLINE in both cases. */
  const TeardownPost: PostStates := PostStates(Offline, Offline)

  /** A finished worker: the final value of its `result` entry and the state it published. */
  datatype WorkerResult = WorkerResult(record: Option<bool>, finalState: State)

  /** Whether a step ran to completion and succeeded. */
  predicate StepSucceeds(a: Action) {
    var s := InstanceExecution(a, false);
    s.Some? && s.value.ok
  }

  /** `thread_worker` on one pipeline. None means the worker is still blocked in the
      wait loop of one of its steps. */
  function ThreadWorker(sut: Action, testIt: Action, post: PostStates): (r: Option<WorkerResult>)
    ensures r.Some? ==> r.value.record.Some?
    ensures r.Some? ==> r.value.finalState == (if r.value.record.value then post.onSuccess else post.onFailure)
    ensures r.Some? ==> (r.value.record == Some(true) <==> StepSucceeds(sut) && StepSucceeds(testIt))
    ensures r.None? <==> InstanceExecution(sut, false).None?
                         || (StepSucceeds(sut) && InstanceExecution(testIt, true).None?)
  {
    match InstanceExecution(sut, false)
    case None => None
    case Some(s) =>
      if !s.ok then Some(WorkerResult(s.record, post.onFailure))
      else
        match InstanceExecution(testIt, true)
        case None => None
        case Some(t) =>
          Some(WorkerResult(t.record, if t.ok then post.onSuccess else post.onFailure))
  }

  /** The TestIt step only runs after a successful SUT step: when the SUT step fails,
      the worker's outcome does not depend on the TestIt step at all. */
  lemma TestItRunsOnlyAfterSut(sut: Action, t1: Action, t2: Action, post: PostStates)
    requires InstanceExecution(sut, false).Some? && !StepSucceeds(sut)
    ensures ThreadWorker(sut, t1, post) == ThreadWorker(sut, t2, post)
    ensures ThreadWorker(sut, t1, post) == Some(WorkerResult(Some(false), post.onFailure))
  {
  }

  /** A bring-up ends READY or FAILED, and READY exactly when both steps succeeded. */
  lemma BringupEndsReadyOrFailed(sut: Action, testIt: Action)
    requires ThreadWorker(sut, testIt, BringupPost).Some?
    ensures var w := ThreadWorker(sut, testIt, BringupPost).value;
            (w.finalState == Ready || w.finalState == Failed)
            && (w.finalState == Ready <==> StepSucceeds(sut) && StepSucceeds(testIt))
  {
  }

  /** A teardown always ends OFFLINE, whatever its steps reported. */
  lemma TeardownEndsOffline(sut: Action, testIt: Action)
    requires ThreadWorker(sut, testIt, TeardownPost).Some?
    ensures ThreadWorker(sut, testIt, TeardownPost).value.finalState == Offline
  {
  }

  /** Teardown sets the pipeline to TEARDOWN before its worker starts, so the SUT step's
      wait loop stops at once and reports failure: a teardown records False unless the
      state was moved off TEARDOWN before the first tick. */
  lemma TeardownRecordsFailure(sut: Action, testIt: Action)
    requires |sut.ticks| > 0 && sut.ticks[0] == Teardown
    ensures ThreadWorker(sut, testIt, TeardownPost) == Some(WorkerResult(Some(false), Offline))
  {
    StartedDuringTeardownFails(sut, false);
  }
}

=== FILE: options.dfy ===
/** Optional values, error-carrying results and the one sequence fact shared by the daemon model. */
module Options {

  /** A value that may be absent: Python's `None`, or a dictionary entry that is not there. */
  datatype Option<+T> = None | Some(value: T)

  /** A computation that either yields a value or raises the exception carried in `error`. */
  datatype Result<+T, +E> = Ok(value: T) | Err(error: E)

  /** No element occurs twice, as for the keys of a dictionary listed in iteration order. */
  predicate Distinct<T(==)>(s: seq<T>) {
    forall i, j :: 0 <= i < j < |s| ==> s[i] != s[j]
  }
}

=== FILE: pipelines.dfy ===
/**
 The pipeline registry of the TestIt daemon: one lifecycle state per pipeline tag,
 the claim of a READY pipeline by a test worker (`acquire_pipeline`) and the release
 of that pipeline once the test worker is done.
 */
module Pipelines {
  import opened Options

  /** The values the daemon stores in a pipeline's `state` field. */
  datatype State = Offline | Bringup | Ready | Busy | Teardown | Failed

  /** The states in which a pipeline is no longer usable by a running action:
      `execute_system` stops polling and the test worker does not free the pipeline. */
  predicate Inactive(s: State) {
    s == Teardown || s == Failed || s == Offline
  }

  /** The registry: `tags` lists the pipelines in the order the daemon's dictionary
      is iterated; `states` holds the `state` field of every pipeline that has one. */
  datatype Pool = Pool(tags: seq<string>, states: map<string, State>)

  /** A pipeline's state with the daemon's default: a pipeline without a `state`
      field reads as OFFLINE. */
  function StateOf(p: Pool, tag: string): State {
    if tag in p.states then p.states[tag] else Offline
  }

  /** Assign one pipeline's `state` field. */
  function SetState(p: Pool, tag: string, s: State): (q: Pool)
    ensures q.tags == p.tags
    ensures StateOf(q, tag) == s
    ensures forall t :: t != tag ==> StateOf(q, t) == StateOf(p, t)
  {
    p.(states := p.states[tag := s])
  }

  /** The position of the first READY pipeline at or after position `i`, in iteration order. */
  function FirstReady(p: Pool, i: nat): (r: Option<nat>)
    requires i <= |p.tags|
    decreases |p.tags| - i
    ensures r.Some? ==> i <= r.value < |p.tags| && StateOf(p, p.tags[r.value]) == Ready
    ensures r.Some? ==> forall j :: i <= j < r.value ==> StateOf(p, p.tags[j]) != Ready
    ensures r.None? ==> forall j :: i <= j < |p.tags| ==> StateOf(p, p.tags[j]) != Ready
  {
    if i == |p.tags| then None
    else if StateOf(p, p.tags[i]) == Ready then Some(i)
    else FirstReady(p, i + 1)
  }

  /** A successful claim: the tag handed to the test and the registry after the claim. */
  datatype Claim = Claim(tag: string, pool: Pool)

  /** One pass of the polling loop of `acquire_pipeline`: claim the first READY pipeline
      in iteration order by setting it BUSY, or find none (the daemon then sleeps and
      scans again). */
  function AcquireScan(p: Pool): (r: Option<Claim>)
    ensures r.None? <==> forall t :: t in p.tags ==> StateOf(p, t) != Ready
    ensures r.Some? ==> r.value.tag in p.tags && StateOf(p, r.value.tag) == Ready
    ensures r.Some? ==> exists i :: 0 <= i < |p.tags| && p.tags[i] == r.value.tag
                                    && forall j :: 0 <= j < i ==> StateOf(p, p.tags[j]) != Ready
    ensures r.Some? ==> r.value.pool.tags == p.tags && StateOf(r.value.pool, r.value.tag) == Busy
    ensures r.Some? ==> forall t :: t != r.value.tag ==> StateOf(r.value.pool, t) == StateOf(p, t)
  {
    match FirstReady(p, 0)
    case None => None
    case Some(i) => Some(Claim(p.tags[i], SetState(p, p.tags[i], Busy)))
  }

  /** The blocking acquisition: `snapshots[k]` is the registry as the k-th scan sees it
      (other workers change it between scans; each scan is taken as one step). The
      result is the scan that succeeded and its claim, or None when no observed scan
      found a READY pipeline and the worker is still waiting. */
  method Acquire(snapshots: seq<Pool>) returns (r: Option<(nat, Claim)>)
    ensures r.None? ==> forall k :: 0 <= k < |snapshots| ==> AcquireScan(snapshots[k]).None?
    ensures r.Some? ==> r.value.0 < |snapshots|
                        && AcquireScan(snapshots[r.value.0]) == Some(r.value.1)
                        && forall k :: 0 <= k < r.value.0 ==> AcquireScan(snapshots[k]).None?
  {
    var k := 0;
    while k < |snapshots|
      invariant k <= |snapshots|
      invariant forall j :: 0 <= j < k ==> AcquireScan(snapshots[j]).None?
    {
      var c := AcquireScan(snapshots[k]);
      if c.Some? {
        return Some((k, c.value));
      }
      k := k + 1;
    }
    return None;
  }

  /** The pipeline's state after the release step of a test worker: a pipeline that is
      still active goes back to READY; one that was torn down, failed or went offline
      in the meantime keeps its state. */
  function ReleasedState(s: State): (r: State)
    ensures r == Ready || r == s
    ensures Inactive(r) <==> Inactive(s)
    ensures r == Ready <==> !Inactive(s)
  {
    if Inactive(s) then s else Ready
  }

  /** The release step of `test_thread_worker` on the registry. */
  function Release(p: Pool, tag: string): (q: Pool)
    ensures q.tags == p.tags
    ensures StateOf(q, tag) == ReleasedState(StateOf(p, tag))
    ensures Inactive(StateOf(p, tag)) ==> q == p
    ensures forall t :: t != tag ==> StateOf(q, t) == StateOf(p, t)
  {
    if Inactive(StateOf(p, tag)) then p else SetState(p, tag, Ready)
  }

  /** A pipeline that a worker still holds as BUSY is READY again after the release. */
  lemma ReleaseFreesBusy(p: Pool, tag: string)
    requires StateOf(p, tag) == Busy
    ensures StateOf(Release(p, tag), tag) == Ready
  {
  }

  /** The release sets READY exactly when the pipeline was not moved to TEARDOWN,
      OFFLINE or FAILED; for a pipeline that is not READY already, it leaves the
      registry untouched exactly when the pipeline was moved to one of those. */
  lemma ReleaseReadyIffActive(p: Pool, tag: string)
    ensures StateOf(Release(p, tag), tag) == Ready <==> !Inactive(StateOf(p, tag))
    ensures StateOf(p, tag) != Ready ==> (Inactive(StateOf(p, tag)) <==> Release(p, tag) == p)
  {
    if !Inactive(StateOf(p, tag)) && StateOf(p, tag) != Ready {
      assert StateOf(Release(p, tag), tag) != StateOf(p, tag);
    }
  }

  /** Claiming a pipeline and releasing it again, with no interference in between,
      restores the registry exactly. */
  lemma AcquireReleaseRoundTrip(p: Pool)
    requires AcquireScan(p).Some?
    ensures Release(AcquireScan(p).value.pool, AcquireScan(p).value.tag) == p
  {
    var c := AcquireScan(p).value;
    assert c.tag in p.states && p.states[c.tag] == Ready;
    assert c.pool.states == p.states[c.tag := Busy];
    assert c.pool.states[c.tag := Ready] == p.states;
  }

  /** A scan that runs after a claim has completed never hands out the claimed
      pipeline again. Each scan is taken as one step; `acquire_pipeline` holds no
      lock between its READY test and its BUSY write, so scans that interleave are
      not covered. */
  lemma NoDoubleClaim(p: Pool)
    requires AcquireScan(p).Some?
    ensures var c := AcquireScan(p).value;
            AcquireScan(c.pool).Some? ==> AcquireScan(c.pool).value.tag != c.tag
  {
  }

  /** With exactly one READY pipeline, of two scans run one after the other the first
      gets it and the second finds nothing free. */
  lemma SingleReadyClaimedOnce(p: Pool, tag: string)
    requires tag in p.tags && StateOf(p, tag) == Ready
    requires forall t :: t in p.tags && t != tag ==> StateOf(p, t) != Ready
    ensures AcquireScan(p).Some? && AcquireScan(p).value.tag == tag
    ensures AcquireScan(AcquireScan(p).value.pool).None?
  {
    var c := AcquireScan(p).value;
    assert c.tag == tag;
    forall t | t in c.pool.tags
      ensures StateOf(c.pool, t) != Ready
    {
      if t != tag {
        assert StateOf(c.pool, t) == StateOf(p, t);
      }
    }
  }
}

=== FILE: polling.dfy ===
/**
 The "wait for workers" loops of the daemon (`multithreaded_command` and
 `nonblocking_test_monitor`) share one shape: scan the dictionary of outstanding
 workers in iteration order, remove the first whose `result` entry is set, and
 poll again. A worker's completion is modelled by the tick from which its entry
 is set; a worker absent from `finishes` never sets it.
 */
module Polling {
  import opened Options

  /** Whether worker `tag` has set its `result` entry by poll tick `t`. */
  predicate Done(finishes: map<string, nat>, tag: string, t: nat) {
    tag in finishes && finishes[tag] <= t
  }

  /** The position of the first finished worker at or after position `i` at tick `t`. */
  function FirstDone(remaining: seq<string>, finishes: map<string, nat>, t: nat, i: nat): (r: Option<nat>)
    requires i <= |remaining|
    decreases |remaining| - i
    ensures r.Some? ==> i <= r.value < |remaining| && Done(finishes, remaining[r.value], t)
    ensures r.Some? ==> forall j :: i <= j < r.value ==> !Done(finishes, remaining[j], t)
    ensures r.None? ==> forall j :: i <= j < |remaining| ==> !Done(finishes, remaining[j], t)
  {
    if i == |remaining| then None
    else if Done(finishes, remaining[i], t) then Some(i)
    else FirstDone(remaining, finishes, t, i + 1)
  }

  /** `del` of one dictionary entry: the others keep their iteration order. */
  function RemoveAt(s: seq<string>, i: nat): (r: seq<string>)
    requires i < |s|
    ensures |r| == |s| - 1
    ensures multiset(r) + multiset{s[i]} == multiset(s)
    ensures forall x :: x in r ==> x in s
    ensures forall j :: 0 <= j < i ==> r[j] == s[j]
    ensures forall j :: i <= j < |r| ==> r[j] == s[j + 1]
  {
    assert s == s[..i] + [s[i]] + s[i + 1..];
    s[..i] + s[i + 1..]
  }

  /** A tick by which every listed worker that finishes at all has finished. */
  function Latest(tags: seq<string>, finishes: map<string, nat>): (r: nat)
    ensures forall x :: x in tags && x in finishes ==> finishes[x] <= r
  {
    if tags == [] then 0
    else
      var rest := Latest(tags[1..], finishes);
      var here := if tags[0] in finishes then finishes[tags[0]] else 0;
      if here < rest then rest else here
  }
}

=== FILE: scheduler.dfy ===
/**
 The test scheduler of the daemon: the `testing` flag, the start of a test run
 (`handle_test`), the monitor that clears the flag once every test worker has
 reported (`nonblocking_test_monitor`), the flag reset done by `handle_teardown`,
 and the classification of test results (`handle_results`).
 */
module Scheduler {
  import opened Options
  import opened Polling

  /** The per-run fields of a configured test. */
  datatype TestCase = TestCase(result: Option<bool>, pipeline: Option<string>, executor: Option<string>)

  /** The scheduler's part of the daemon: the `testing` flag, the tests by tag, and the
      tags of the outstanding entries of `test_threads`. */
  datatype Daemon = Daemon(testing: bool, tests: map<string, TestCase>, workers: set<string>)

  /** A service response. */
  datatype Response = Response(success: bool, message: string)

  /** The daemon after `handle_test`, the tests whose worker it started, and its response. */
  datatype Started = Started(daemon: Daemon, launched: set<string>, response: Response)

  /** `handle_test`. */
  function HandleTest(d: Daemon): (r: Started)
    ensures r.response == Response(true, "")
    ensures d.testing ==> r.daemon == d && r.launched == {}
    ensures !d.testing ==> r.daemon.testing && r.launched == d.tests.Keys
    ensures !d.testing ==> r.daemon.workers == d.workers + d.tests.Keys
    ensures !d.testing ==> r.daemon.tests.Keys == d.tests.Keys
    ensures !d.testing ==> forall t :: t in d.tests ==>
              r.daemon.tests[t].result.None? && r.daemon.tests[t].pipeline.None?
              && r.daemon.tests[t].executor == d.tests[t].executor
  {
    if d.testing then Started(d, {}, Response(true, ""))
    else
      var reset := map t | t in d.tests :: d.tests[t].(result := None, pipeline := None);
      Started(Daemon(true, reset, d.workers + d.tests.Keys), d.tests.Keys, Response(true, ""))
  }

  /** `handle_teardown` clears the flag before it dispatches the teardown. */
  function TeardownReset(d: Daemon): (r: Daemon)
    ensures !r.testing && r.tests == d.tests && r.workers == d.workers
  {
    d.(testing := false)
  }

  /** A request during a run is refused silently: nothing changes, no worker starts, and
      the response is still a success. */
  lemma RunWhileTestingIsNoOp(d: Daemon)
    requires d.testing
    ensures HandleTest(d).daemon == d && HandleTest(d).launched == {}
    ensures HandleTest(d).response.success
  {
  }

  /** A teardown re-opens the scheduler even while test workers are outstanding: the next
      request starts a second set of workers next to them. */
  lemma TeardownAllowsOverlappingRun(d: Daemon)
    ensures HandleTest(TeardownReset(d)).launched == d.tests.Keys
    ensures HandleTest(TeardownReset(d)).daemon.workers == d.workers + d.tests.Keys
  {
  }

  /** The monitor thread. `threads` is the iteration order of `test_threads`, `finishes`
      says from which poll tick each worker's entry is set (a worker that never writes one
      is absent), and `horizon` is the last tick observed. The monitor clears `testing`
      exactly when every worker has reported by the horizon; `t` is the tick it got to. */
  method Monitor(threads: seq<string>, finishes: map<string, nat>, horizon: nat, testing: bool)
    returns (testingAfter: bool, remaining: seq<string>, t: nat)
    ensures (remaining == []) <==> forall x :: x in threads ==> Done(finishes, x, horizon)
    ensures testingAfter == (testing && remaining != [])
    ensures remaining == [] ==> t <= horizon && forall x :: x in threads ==> Done(finishes, x, t)
    ensures forall x :: x in remaining ==> x in threads && !Done(finishes, x, horizon)
    ensures forall x :: x in threads && !Done(finishes, x, horizon) ==> x in remaining
  {
    remaining := threads;
    var cleared := remaining == [];
    t := 0;
    ghost var removed: seq<string> := [];
    while t <= horizon && !cleared
      invariant t <= horizon + 1
      invariant cleared <==> remaining == []
      invariant cleared ==> t <= horizon
      invariant multiset(remaining) + multiset(removed) == multiset(threads)
      invariant forall x :: x in remaining ==> x in threads
      invariant forall x :: x in removed ==> Done(finishes, x, t)
      invariant forall x :: x in removed ==> Done(finishes, x, horizon)
      invariant t > 0 && !cleared ==> forall x :: x in remaining ==> !Done(finishes, x, t - 1)
      decreases horizon + 1 - t, |remaining| + (if cleared then 0 else 1)
    {
      var f := FirstDone(remaining, finishes, t, 0);
      if f.Some? {
        removed := removed + [remaining[f.value]];
        remaining := RemoveAt(remaining, f.value);
      }
      if remaining == [] {
        cleared := true;
      } else if f.None? {
        t := t + 1;
      }
    }
    testingAfter := testing && !cleared;
    if cleared {
      forall x | x in threads
        ensures Done(finishes, x, t) && Done(finishes, x, horizon)
      {
        assert x in multiset(threads);
        assert x in multiset(removed);
      }
    } else {
      assert t == horizon + 1 && t - 1 == horizon;
      assert remaining[0] in remaining;
      assert remaining[0] in threads && !Done(finishes, remaining[0], horizon);
    }
    forall x | x in threads && !Done(finishes, x, horizon) ensures x in remaining {
      assert x in multiset(threads);
      assert x !in multiset(removed);
    }
  }

  /** How `handle_results` reports a test: not executed, failed, or passed. */
  datatype Outcome = Skipped | Fail | Success

  /** The classification of a test's `result` field. */
  function Classify(r: Option<bool>): Outcome {
    match r
    case None => Skipped
    case Some(pass) => if pass then Success else Fail
  }

  /** The `result` value a reported outcome stands for. */
  function ResultOf(o: Outcome): Option<bool> {
    match o
    case Skipped => None
    case Fail => Some(false)
    case Success => Some(true)
  }

  /** The classification loses nothing: each outcome names exactly one `result` value. */
  lemma ClassifyRoundTrip(r: Option<bool>, o: Outcome)
    ensures ResultOf(Classify(r)) == r
    ensures Classify(ResultOf(o)) == o
  {
  }

  /** The outcomes `handle_results` reports, in the iteration order of the tests. */
  function Results(order: seq<string>, tests: map<string, TestCase>): (names: seq<Outcome>)
    requires forall t :: t in order ==> t in tests
    ensures |names| == |order|
    ensures forall i :: 0 <= i < |order| ==> (names[i] == Skipped <==> tests[order[i]].result.None?)
    ensures forall i :: 0 <= i < |order| ==> (names[i] == Success <==> tests[order[i]].result == Some(true))
    ensures forall i :: 0 <= i < |order| ==> (names[i] == Fail <==> tests[order[i]].result == Some(false))
  {
    seq(|order|, i requires 0 <= i < |order| => Classify(tests[order[i]].result))
  }

  /** Right after a run starts, every test reports as skipped until its worker writes a verdict. */
  lemma FreshRunReportsSkipped(d: Daemon, order: seq<string>)
    requires !d.testing
    requires forall t :: t in order ==> t in d.tests
    ensures forall i :: 0 <= i < |order| ==> Results(order, HandleTest(d).daemon.tests)[i] == Skipped
  {
  }

  /** The worker of test `tag` writing its verdict and the pipeline that ran it. */
  function RecordVerdict(d: Daemon, tag: string, pass: bool, pipeline: string): (r: Daemon)
    requires tag in d.tests
    ensures r.tests.Keys == d.tests.Keys && r.testing == d.testing && r.workers == d.workers
    ensures Classify(r.tests[tag].result) == (if pass then Success else Fail)
    ensures r.tests[tag].executor == Some(pipeline)
    ensures forall t :: t in d.tests && t != tag ==> r.tests[t] == d.tests[t]
  {
    d.(tests := d.tests[tag := d.tests[tag].(result := Some(pass), executor := Some(pipeline))])
  }
}

=== FILE: test_run.dfy ===
/**
 One test worker (`test_thread_worker`) once it holds a pipeline: run the SUT, run
 TestIt, execute the test, stop TestIt, stop the SUT, and free the pipeline. Each
 run/stop call is an `execute_system` action; the verdict comes from `Verdicts`.
 */
module TestRun {
  import opened Options
  import opened Pipelines
  import opened BoundedWait
  import opened Verdicts

  /** Everything the worker's steps depend on: the four actions, the test run itself and
      the pipeline state the release step reads. */
  datatype TestInputs = TestInputs(
    runSut: Action,
    runTestIt: Action,
    run: Run,
    stopTestIt: Action,
    stopSut: Action,
    stateAtRelease: State)

  /** How far the worker got: the verdict written to the test's `result` and to its worker
      entry (None: never written), the pipeline written as `executor_pipeline`, and the state
      the release step left (None: the worker is still blocked in an earlier step). */
  datatype Progress = Progress(verdict: Option<bool>, executor: Option<string>, released: Option<State>)

  /** Whether an `execute_system` call returns within the observed ticks. */
  predicate Returns(a: Action) {
    ExecuteSystem(a).Some?
  }

  /** The last step: stop the SUT (its answer is ignored) and release the pipeline. */
  function StopSutAndRelease(verdict: Option<bool>, executor: Option<string>, inp: TestInputs): (r: Progress)
    ensures r.verdict == verdict && r.executor == executor
    ensures r.released.Some? <==> Returns(inp.stopSut)
    ensures r.released.Some? ==> r.released.value == ReleasedState(inp.stateAtRelease)
  {
    if Returns(inp.stopSut) then Progress(verdict, executor, Some(ReleasedState(inp.stateAtRelease)))
    else Progress(verdict, executor, None)
  }

  /** `test_thread_worker` after `acquire_pipeline` returned `pipeline`. */
  function TestWorker(pipeline: string, inp: TestInputs): (r: Progress)
    ensures r.verdict.Some? <==> ExecuteSystem(inp.runSut) == Some(true) && ExecuteSystem(inp.runTestIt) == Some(true)
    ensures r.verdict.Some? ==> r.verdict.value == Verdict(inp.run) && r.executor == Some(pipeline)
    ensures r.verdict.None? ==> r.executor.None?
    ensures r.released.Some? <==>
              Returns(inp.runSut)
              && (ExecuteSystem(inp.runSut) == Some(true) ==>
                    Returns(inp.runTestIt)
                    && (ExecuteSystem(inp.runTestIt) == Some(true) ==> Returns(inp.stopTestIt))
                    && Returns(inp.stopSut))
    ensures r.released.Some? ==> r.released.value == ReleasedState(inp.stateAtRelease)
  {
    match ExecuteSystem(inp.runSut)
    case None => Progress(None, None, None)
    case Some(sutUp) =>
      if !sutUp then Progress(None, None, Some(ReleasedState(inp.stateAtRelease)))
      else
        match ExecuteSystem(inp.runTestIt)
        case None => Progress(None, None, None)
        case Some(testItUp) =>
          if !testItUp then StopSutAndRelease(None, None, inp)
          else
            var v := Verdict(inp.run);
            if Returns(inp.stopTestIt) then StopSutAndRelease(Some(v), Some(pipeline), inp)
            else Progress(Some(v), Some(pipeline), None)
  }

  /** The answers of the stop calls never change the verdict or the release: only whether
      they return matters. */
  lemma StopAnswersIgnored(pipeline: string, inp: TestInputs, stopTestIt: Action, stopSut: Action)
    requires Returns(stopTestIt) == Returns(inp.stopTestIt)
    requires Returns(stopSut) == Returns(inp.stopSut)
    ensures TestWorker(pipeline, inp.(stopTestIt := stopTestIt, stopSut := stopSut)) == TestWorker(pipeline, inp)
  {
  }

  /** A worker whose SUT or TestIt could not be started writes no verdict, so its worker
      entry stays None and the monitor keeps waiting for it. */
  lemma FailedStartWritesNoVerdict(pipeline: string, inp: TestInputs)
    requires ExecuteSystem(inp.runSut) == Some(false)
             || (ExecuteSystem(inp.runSut) == Some(true) && ExecuteSystem(inp.runTestIt) == Some(false))
    ensures TestWorker(pipeline, inp).verdict.None?
  {
  }

  /** The release step on the registry: a worker that reaches it frees the pipeline it
      holds unless a teardown or failure intervened, and touches no other pipeline. */
  lemma ReleaseOnRegistry(p: Pool, pipeline: string, inp: TestInputs)
    requires inp.stateAtRelease == StateOf(p, pipeline)
    requires TestWorker(pipeline, inp).released.Some?
    ensures StateOf(Release(p, pipeline), pipeline) == TestWorker(pipeline, inp).released.value
    ensures forall t :: t != pipeline ==> StateOf(Release(p, pipeline), t) == StateOf(p, t)
  {
  }
}

=== FILE: verdict.dfy ===
/**
 The verdict of one test run (`execute_in_testit_container`). The launch command
 runs attached when the test has no oracle and detached when it has one; in the
 detached case the oracle command decides. A command that has not returned when
 its join deadline passes leaves the sentinel -1 in `call_result`.
 */
module Verdicts {

  /** The value `thread_call` stores before the command returns, read as "timed out". */
  const TimedOut: int := -1

  /** What the daemon needs to know about a finished test run: the configured oracle
      command ("" when none), the codes left in `call_result` for the launch and the
      oracle, the test's `timeoutVerdict` and whether rosbag recording is enabled. */
  datatype Run = Run(oracle: string, launchCode: int, oracleCode: int, timeoutVerdict: bool, bagEnabled: bool)

  /** The test is launched detached exactly when it has an oracle. */
  predicate Detached(r: Run) {
    r.oracle != ""
  }

  /** The verdict `execute_in_testit_container` returns. */
  function Verdict(r: Run): (pass: bool)
    ensures !Detached(r) ==>
              (pass <==> r.launchCode == 0 || (r.launchCode == TimedOut && r.timeoutVerdict))
    ensures Detached(r) && r.launchCode == 0 ==>
              (pass <==> r.oracleCode != TimedOut || r.timeoutVerdict)
    ensures r.launchCode == TimedOut ==> pass == r.timeoutVerdict
    ensures r.launchCode != 0 && r.launchCode != TimedOut ==> !pass
  {
    if r.launchCode == 0 then
      if !Detached(r) then true
      else if r.oracleCode == 0 then true
      else if r.oracleCode == TimedOut then r.timeoutVerdict
      else true
    else if r.launchCode == TimedOut then r.timeoutVerdict
    else false
  }

  /** The line the daemon logs about the run. */
  datatype Logged = TestPass | TestTimeout | TestFail

  /** Which of "TEST PASS!", "TEST TIMEOUT" or "TEST FAIL!" the daemon logs. */
  function LoggedAs(r: Run): Logged {
    if r.launchCode == 0 then
      if !Detached(r) || r.oracleCode == 0 then TestPass
      else if r.oracleCode == TimedOut then TestTimeout
      else TestFail
    else if r.launchCode == TimedOut then TestTimeout
    else TestFail
  }

  /** The oracle failed: detached run, launch returned 0, oracle neither 0 nor timed out. */
  predicate OracleFailed(r: Run) {
    Detached(r) && r.launchCode == 0 && r.oracleCode != 0 && r.oracleCode != TimedOut
  }

  /** The verdict agrees with the logged line (PASS passes, FAIL fails, TIMEOUT applies
      `timeoutVerdict`) in every case but one: when the oracle fails, the daemon logs
      "TEST FAIL!" and still returns a pass. */
  lemma VerdictMatchesLogExceptOracleFailure(r: Run)
    ensures !OracleFailed(r) ==>
              (Verdict(r) <==> LoggedAs(r) == TestPass || (LoggedAs(r) == TestTimeout && r.timeoutVerdict))
    ensures OracleFailed(r) ==> LoggedAs(r) == TestFail && Verdict(r)
  {
  }

  /** Without an oracle the oracle's code plays no part in the verdict. */
  lemma AttachedIgnoresOracle(r: Run, oracleCode: int)
    requires !Detached(r)
    ensures Verdict(r.(oracleCode := oracleCode)) == Verdict(r)
  {
  }

  /** The recording is stopped after the run exactly when it was started and the test passed. */
  function StopsRecording(r: Run): (stop: bool)
    ensures stop ==> r.bagEnabled
    ensures r.bagEnabled ==> (stop <==> Verdict(r))
  {
    Verdict(r) && r.bagEnabled
  }
}
